=== FILE: README.md ===
# pynivision binding generator: a Dafny model of the emitter

pynivision wraps the NI Vision C library for Python. Its generator,
`gen_wrap.py`, reads the C headers and writes `nivision/core.py`. A
recogniser turns each header into a stream of declaration events: constants,
enumerations, typedefs, function-pointer typedefs, functions, structures,
unions and block comments. The `CtypesEmitter` class turns each event into
lines of Python ctypes code. It keeps a small symbol table while it does so:
the names already defined, the enumeration names, the opaque and
forward-declared structures, and the constants that must wait until the
structures exist. The generated module starts with a fixed runtime prefix,
`ctypes_core_prefix.py`. The prefix holds the binding constructors
(RETFUNC, STDFUNC, STDPTRFUNC, DXFUNC) with their error checks, the disposal
of library-allocated handles, bounds-checked native arrays, and the
conversion of array arguments.

This project models both halves as pure functions over immutable data:

- The symbol table is an explicit `Context.GenContext`. It is threaded
  through every emit function, and each emit function returns an
  `Emission`: generated lines, console diagnostics and the updated context.
- The per-name configuration is `Context.Config`: a map from section name to
  `Hints`, a DEFAULT section, and the `_platform_` library.
- The Python exceptions that stop the generator are the `Err` side of
  `Results.Result`: an IndexError on an empty string, a KeyError on a missing
  parameter, a ValueError from `dict()` or `int(x, 0)`, and a TypeError from
  a malformed diagnostic.
- A native call of the runtime is a parameter: its result, or the status the
  native dispose returns for each handle.

Modules follow the source:

- `TypeMapper`: `c_to_ctype`.
- `Constants`: `define`.
- `Enums`: `enum`.
- `Declarations`: `typedef`, `typedef_function`, `structunion` and the
  opaque-structure block.
- `Inference`, `Wrappers` and `Functions`: the decisions of `function`, the
  wrapper it writes, and the whole `function`.
- `Emitter`: the constructor's prelude, and the dispatch of an event sequence.
- `Runtime`: the runtime prefix.
- `Bindings`: how the generated binding record meets RETFUNC.
- `Text`, `Numerals`, `Ordering` and `HintLists`: the Python `str`, `int`,
  `sorted` and `dict` behaviour the generator relies on.

## Model

| member | source | states |
|---|---|---|
| `TypeMapper.ScalarMapsToTable` | gen_wrap.py:144-150 | a spelling in `ctypes_map`, after one leading `const` is stripped, becomes `ctypes.` plus its entry; `*N` is appended only for a non-empty suffix `N`, and an empty suffix does not make it a pointer |
| `TypeMapper.ConstIsInvisible` | gen_wrap.py:146-147 | a leading `const` does not change the mapping, unless what follows it starts with `const` again, since only one is stripped |
| `TypeMapper.VoidIsNone` | gen_wrap.py:151-152 | `void` and `const void` map to `None`, with or without a suffix |
| `TypeMapper.EmptySpellingFails` | gen_wrap.py:157 | the empty spelling raises IndexError |
| `TypeMapper.OpaquePointerCollapses` | gen_wrap.py:153-155 | `X*` with `X` an opaque structure maps to the bare `X`, plus the array suffix, for every suffix except the empty one (`X*` with `[]` gives `ctypes.POINTER(X)`, gen_wrap.py:159-160) |
| `TypeMapper.PointerWrapsPointee` | gen_wrap.py:156-161 | any other trailing `*` maps to `ctypes.POINTER(...)` of the mapped pointee followed by the array suffix (`*N` for a non-empty `N`, nothing for none), and fails exactly when the pointee fails |
| `TypeMapper.EmptySuffixIsPointer` | gen_wrap.py:159-160 | an empty array suffix on a name outside the table wraps its mapping in `ctypes.POINTER(...)` |
| `TypeMapper.PlainNameUnchanged` | gen_wrap.py:161 | a user type name outside the table, not `void` and not opaque-related, passes through unchanged, followed by `*N` for a non-empty array suffix `N` |
| `TypeMapper.ArrayOfNamedType` | gen_wrap.py:156-161 | `c_to_ctype("PointFloat", "4")` is `PointFloat*4` and `c_to_ctype("Foo*", "4")` is `ctypes.POINTER(Foo)*4` |
| `TypeMapper.PointerChain` | gen_wrap.py:156-161 | a plain name followed by `k` stars maps to `k` nested `ctypes.POINTER` around the name |
| `TypeMapper.TableHasNoVoid` | gen_wrap.py:101-141 | the table has neither `void` nor the empty spelling, so the laws above that exclude them apply to the generator's own table |
| `Constants.Classify` | gen_wrap.py:42-59 | the classification order: `TRUE`, `FALSE`, a braced `IMAQ_INIT_RGB*` value, an `imaqMake` prefix, a string literal, a number, an identifier, else invalid; each kind holds exactly when the earlier tests fail; an empty value raises IndexError |
| `Constants.Define` | gen_wrap.py:35-69 | excluded and opaque names are skipped first; an invalid value gives only the diagnostic; RGB, `imaqMake` and unresolved identifier constants are appended to the deferred queue and are not defined; every other constant is emitted at once and defined |
| `Constants.DefinedIffEmitted` | gen_wrap.py:60-69 | a constant is defined exactly when a line is emitted for it, and queued exactly when it is neither defined nor diagnosed; a diagnosed constant leaves the context unchanged |
| `Constants.IdentifierWaitsForReferent` | gen_wrap.py:56-58 | an identifier constant is emitted at once exactly when its referent is already defined |
| `Enums.Kept` | gen_wrap.py:88-90 | the members kept are exactly the non-guard members, in declaration order |
| `Enums.KeptConcat` | gen_wrap.py:88-90 | dropping guards works member by member, so it distributes over concatenation |
| `Enums.Assign` | gen_wrap.py:87-96 | numbering fails (ValueError) exactly when a member's explicit value is not a Python integer literal; otherwise there is one entry per member |
| `Enums.AssignEntry` | gen_wrap.py:91-96 | entry `k` has member `k`'s name, the text it is printed with, and the number that member takes after the previous entry |
| `Enums.AssignCons` | gen_wrap.py:88-96 | the first member's entry carries its name, printed text and number, and the rest are numbered from that number |
| `Enums.EntryReadsBack` | gen_wrap.py:91-96 | every printed value reads back under `int(text, 0)` as the recorded number; an auto value is one more than the previous emitted value; an explicit value is printed verbatim |
| `Enums.AutoValuesCount` | gen_wrap.py:91-96 | members without values are numbered consecutively after the previous value |
| `Enums.FirstAutoIsZero` | gen_wrap.py:87-93 | a first member without a value gets 0 |
| `Enums.Enum` | gen_wrap.py:81-99 | excluded and opaque names are skipped; the class line, one line per kept member and a blank line; the kept names and the enum name are defined, and the enum name is added to `enums`; an error exactly when a kept member has a bad value |
| `Enums.DefinesKeptNames` | gen_wrap.py:95-99 | every kept member and the enum name end up defined, and nothing else is added |
| `Enums.GuardIsInvisible` | gen_wrap.py:89-90 | inserting a guard member anywhere changes neither the output nor the context, so it does not advance the counter |
| `Enums.GuardExample` | gen_wrap.py:89-90 | a `SIZE_GUARD` member between others is dropped |
| `Enums.NumberingExample` | gen_wrap.py:87-96 | `A = 2, B, D` are numbered 2, 3 and 4 |
| `Numerals.ParseFormatInt` | gen_wrap.py:93-96 | what `"%d"` prints, `int(s, 0)` reads back as the same number |
| `Numerals.ParseInt` | gen_wrap.py:96 | `int(s, 0)` fails exactly when the text left after stripping whitespace and one optional sign is not an unsigned literal; a negative result needs a minus sign |
| `Numerals.Ungroup` | gen_wrap.py:96 | dropping grouping underscores leaves no underscore and changes nothing in a text that has none |
| `Numerals.GroupedDecimal` | gen_wrap.py:96 | `1_000` reads as 1000 |
| `Numerals.GroupedZeros` | gen_wrap.py:96 | `0_0` reads as 0 |
| `Numerals.GroupedPrefixed` | gen_wrap.py:96 | `0x_ff` reads as 255: one underscore may follow a base prefix |
| `Numerals.BadGrouping` | gen_wrap.py:96 | doubled, leading and trailing underscores are rejected, as are a prefix without digits and a nonzero decimal with a leading zero |
| `Declarations.Typedef` | gen_wrap.py:163-177 | excluded and opaque names are skipped; a `struct` or `union` tag gives a forward class; a name already in `ctypes_map` emits nothing and is not defined; anything else becomes an alias of the mapped type |
| `Declarations.NonVoid` | gen_wrap.py:186 | the parameters listed are exactly those not named `void` |
| `Declarations.NonVoidConcat` | gen_wrap.py:186 | dropping `void` works parameter by parameter, so the kept parameters follow the prototype's order |
| `Declarations.MapParams` | gen_wrap.py:186 | the parameter types are mapped in order; it fails exactly when one of them fails |
| `Declarations.ParamSuffix` | gen_wrap.py:185-188 | the parameter list is empty exactly when there are no parameter types |
| `Declarations.TypedefFunction` | gen_wrap.py:179-191 | the `CFUNCTYPE` line of the mapped return type and the non-`void` parameter types; the name is defined |
| `Declarations.FieldLines` | gen_wrap.py:369-371 | one `_fields_` entry per field, in field order, with the mapped type |
| `Declarations.StructUnion` | gen_wrap.py:360-378 | the class line only for a name not yet defined, then `_fields_` in field order; it fails exactly when a field type fails |
| `Declarations.LayoutAfterDeclaration` | gen_wrap.py:168-169 | a structure declared by `typedef struct` later gets its layout without a second class line |
| `Declarations.FieldsIgnoreDefined` | gen_wrap.py:369-371 | field mapping depends only on the opaque set |
| `Declarations.SecondLayoutHasNoClass` | gen_wrap.py:365-367 | emitting a structure twice writes the class line only once |
| `Declarations.LayoutOfDefined` | gen_wrap.py:365-371 | a structure whose name is already defined is emitted as its `_fields_` layout alone, with no diagnostic and the context unchanged |
| `Declarations.BlockComment` | gen_wrap.py:27-30 | a banner of 78 `#`, the title line, and the banner again |
| `Declarations.OpaquePrelude` | gen_wrap.py:19-21 | after the banner comes one `Disposed` class per opaque structure, each exactly once, in strictly increasing name order |
| `Declarations.OpaqueStructInjective` | gen_wrap.py:32-33 | different opaque names give different class lines |
| `Ordering.SortedNames` | gen_wrap.py:20 | `sorted(opaque_structs)` holds every name exactly once, in strictly increasing order |
| `Inference.PlanReturn` | gen_wrap.py:207-221 | `int` gives STDFUNC and `IMAQdxError` gives DXFUNC; otherwise a trailing `*` gives STDPTRFUNC and anything else RETFUNC, with the mapped type passed on; `retpointer` holds iff `rvdisposed` is set or the mapped type contains the name of `ctypes.POINTER`; an empty return type raises |
| `Inference.OpaqueReturnIsNotPointer` | gen_wrap.py:214-220 | a function returning an opaque `X*` is STDPTRFUNC with return type `X`, and its return is not a disposable pointer unless `rvdisposed` is set |
| `Inference.SizeHintsOf` | gen_wrap.py:224-229 | the size parameters are exactly the `arraysize` values plus a non-empty `retarraysize`; a malformed `arraysize` raises ValueError |
| `Inference.Outputs` | gen_wrap.py:256-264 | a parameter is an output iff it is listed in `outparams`, or it is not in `inparams`, the function is not underscored, and its type is a non-const pointer to something other than a forward structure |
| `Inference.OutputsConcat` | gen_wrap.py:243-264 | outputs keep parameter order |
| `Inference.ParamArgs` | gen_wrap.py:246-254 | one parameter record per non-`void` parameter, in order, carrying its default when `defaults` names one; fails exactly when a parameter type fails |
| `Inference.ParamTypesDomain` | gen_wrap.py:249 | `paramtypes` records exactly the parameter names |
| `Inference.ParamTypesLast` | gen_wrap.py:249 | a repeated name keeps its last declaration |
| `Inference.ScanParams` | gen_wrap.py:243-264 | the parameter loop gives the records, `paramtypes` and the outputs, and says whether some output forces a wrapper |
| `Inference.OutputsAreTyped` | gen_wrap.py:249-264 | every output has a recorded type, so the wrapper's lookups of outputs cannot raise KeyError |
| `Inference.OutArg` | gen_wrap.py:266-267 | `out=[...]` is written iff the function is not custom and has outputs, and it lists them quoted in order |
| `Inference.LibraryArg` | gen_wrap.py:269-274 | `library=` is written iff `_platform_` names a library other than `_dll` |
| `HintLists.PairOf` | gen_wrap.py:224 | a piece gives a pair exactly when it has one colon; the key is the stripped text before it and the value the stripped text after it |
| `HintLists.PairOfJoined` | gen_wrap.py:224 | a key and a value without colons, joined by one colon, read back as the stripped key and value |
| `HintLists.NonEmpty` | gen_wrap.py:224-225 | the `if x` filter keeps exactly the non-empty pieces |
| `HintLists.NonEmptyConcat` | gen_wrap.py:224-225 | dropping empty pieces works piece by piece, so the kept pieces follow the option text's order |
| `HintLists.PairsOfEachOk` | gen_wrap.py:224-225 | converting the kept pieces fails exactly when one of them does not have one colon |
| `HintLists.PairsOfEachAt` | gen_wrap.py:224-225 | pair `k` is the pair of kept piece `k` |
| `HintLists.PairsOf` | gen_wrap.py:224-225 | the pairs are those of the non-empty comma-separated pieces, one per piece and in order; ValueError exactly when a non-empty piece does not have one colon |
| `HintLists.ParsePairs` | gen_wrap.py:224-225 | the option's value is the `dict` of the pairs of its non-empty comma-separated pieces, so it has distinct keys; ValueError exactly when a non-empty piece does not have one colon |
| `HintLists.Dict` | gen_wrap.py:224-225 | `dict(pairs)` holds each key of the pairs once, in first-occurrence order, with the value of the key's last occurrence |
| `HintLists.DictOrderStep` | gen_wrap.py:224-225 | storing one more pair keeps the keys in first-occurrence order |
| `HintLists.DictOfDistinct` | gen_wrap.py:224-225 | pairs with distinct keys give the same pairs in the same order |
| `HintLists.Put` | gen_wrap.py:224-225 | storing a key sets its value and leaves every other key alone; an existing key keeps its place, and a new key goes at the end |
| `Functions.DefaultsFor` | gen_wrap.py:238-240 | `defaults` is parsed only when there are parameters; with none it is empty and a malformed option does not raise |
| `Functions.PlanFor` | gen_wrap.py:204-264 | the function is custom iff there are size parameters, or `retpointer` holds, or some output belongs to a non-status function or points to an enumeration |
| `Functions.BindingPrivateIff` | gen_wrap.py:276-278 | the binding name gets the `_` prefix iff the function is underscored or custom |
| `Functions.Lines` | gen_wrap.py:276-356 | the binding record comes first, and a wrapper follows it iff the function is custom and not underscored |
| `Functions.Function` | gen_wrap.py:193-358 | excluded and opaque names are skipped; otherwise the binding and the wrapper, and the name is defined; any raise stops the function |
| `Functions.StatusFunctionNeedsNoWrapper` | gen_wrap.py:223-264 | a status function with no size hints, no `rvdisposed`, and no inferred output that points to an enumeration needs no wrapper |
| `Functions.ResultWithOutputIsCustom` | gen_wrap.py:257-263 | a non-status function with any inferred output is custom |
| `Wrappers.WrapperParams` | gen_wrap.py:282-288 | the wrapper's parameters are the declared names, in order, less the outputs and the size parameters |
| `Wrappers.WrapperParamsConcat` | gen_wrap.py:282-288 | the parameter filter works name by name, so the `def` lists its parameters in declaration order |
| `Wrappers.ElementType` | gen_wrap.py:297-299 | an array or output element type is the declared pointer type less its last character, mapped; a name without a recorded type raises KeyError |
| `Wrappers.ArrayLines` | gen_wrap.py:295-300 | one `iterableToArray` conversion per `arraysize` pair, in order |
| `Wrappers.Placed` | gen_wrap.py:303-305 | placeholders go to the outputs that are not array inputs |
| `Wrappers.PlacedConcat` | gen_wrap.py:303-305 | the placeholder filter works output by output, so placeholders are allocated and outputs returned in `outparams` order |
| `Wrappers.PlaceholderFor` | gen_wrap.py:306-318 | an output pointing to an enumeration is initialised with `0` and returned unwrapped; any other is default-constructed and returned as `.value` |
| `Wrappers.Placeholders` | gen_wrap.py:303-318 | one placeholder per placed output, in output order |
| `Wrappers.CallArgs` | gen_wrap.py:321-326 | the call arguments keep declaration order, and the outputs that are not array inputs are passed with `ctypes.byref` |
| `Wrappers.RemoveFirst` | gen_wrap.py:341 | `list.remove`: without the first occurrence, or failing when there is none |
| `Wrappers.ReturnValue` | gen_wrap.py:336-354 | with `retarraysize`, the return is `DisposedArray(rv, size.value)` and that `.value` leaves the returned outputs; if it is missing, the diagnostic's bad format raises TypeError; otherwise `DisposedPointer(rv)` for a pointer return and `rv` for the rest; never `rv.contents` |
| `Wrappers.CallLines` | gen_wrap.py:328-356 | a status function calls the binding and returns only its outputs, if any; any other function returns the mapped `rv` first, then the outputs in order |
| `Wrappers.Wrapper` | gen_wrap.py:280-356 | the `def` line with the wrapper parameters, then the array conversions, then the body of `Wrappers.WrapperBody`; it fails exactly when a conversion, a placeholder or the return mapping fails |
| `Wrappers.WrapperBody` | gen_wrap.py:303-356 | one placeholder line per placed output, in output order, then the lines that call the binding with the call arguments and return; fails exactly when a placeholder or the return mapping fails |
| `Wrappers.EveryArgumentIsBound` | gen_wrap.py:282-326 | every argument passed to the binding is bound first: a wrapper parameter, a length the conversions assign, or an allocated output; every array a conversion reads and converts is itself a wrapper parameter |
| `Wrappers.SizedOutputIsUnbound` | gen_wrap.py:282-318 | a sized parameter that is also an output is neither a wrapper parameter nor given a placeholder |
| `Wrappers.SizedOutputExample` | gen_wrap.py:282-318 | for `int f(float* buf, int n)` with `arraysize = buf:n`, `buf` is an output, the wrapper has no parameters and `buf` gets no placeholder |
| `Wrappers.ByReferenceIffPlaced` | gen_wrap.py:322-326 | an argument whose name has no parenthesis, as every C identifier, is passed by reference exactly when it is a placed output |
| `Emitter.Start` | gen_wrap.py:19-21 | the constructor writes the banner, then exactly one class per opaque structure, and leaves the context (and so `defined`) unchanged |
| `Emitter.Emit` | gen_wrap.py:35-378 | each event goes to its emit method; an excluded or opaque name is silent; the context only grows |
| `Emitter.Generate` | gen_wrap.py:401-402 | driving the emitter over one header's events only adds to the context |
| `Emitter.Run` | gen_wrap.py:35-378 | a sequence of events is emitted in order, each seeing the context the previous one left; the first raise ends the run; the context only grows |
| `Emitter.RunConcat` | gen_wrap.py:35-378 | a run over two event sequences is the first run followed by the second, started from where the first left off |
| `Emitter.ExcludedEventIsInvisible` | gen_wrap.py:36-37 | an event whose name is excluded can be removed from any run without changing the result |
| `Context.GrowsTransitive` | gen_wrap.py:65-69 | names are only added and deferred constants only appended, over any number of steps |
| `Context.Excluded` | gen_wrap.py:36 | a name with a section is excluded iff that section's `exclude` is set; a name without a section is excluded iff it is `DEFAULT` and the DEFAULT section's `exclude` is set |
| `Context.HintsFor` | gen_wrap.py:199-202 | a name's own section when there is one, else the DEFAULT section |
| `Runtime.ParamFlags` | ctypes_core_prefix.py:42-51 | one flag per parameter, with direction 2 iff `out` is given and contains the name, else 1; the default of a 3-element record is kept |
| `Runtime.StatusConventionsOpposite` | ctypes_core_prefix.py:63-90 | on every status the STDFUNC check raises exactly where the DXFUNC check returns the arguments, and the other way round |
| `Runtime.StdPtrRaises` | ctypes_core_prefix.py:72-78 | the STDPTRFUNC check raises iff the result is None, or 0, or has a `value` that is None or 0 |
| `Runtime.Installed` | ctypes_core_prefix.py:54-55 | an `errcheck` given by the caller, `None` included, overrides the constructor's default; RETFUNC installs none of its own |
| `Runtime.Check` | ctypes_core_prefix.py:63-90 | the installed check raises ImaqError or ImaqDxError, carrying the status, on its convention's error results, and otherwise returns the arguments; a caller's own check decides; no check leaves the result unchecked |
| `Runtime.DefaultChecksFollowConventions` | ctypes_core_prefix.py:63-90 | a STDFUNC binding with its own check raises exactly on status 0, a DXFUNC binding exactly on a non-zero status, and `errcheck=None` disables the check |
| `Runtime.Dispose` | ctypes_core_prefix.py:135-141 | `_contents` is released, then `value`, each only when set, and each is cleared; a plain int releases nothing; a raise happens exactly when a release fails, and it stops the disposal: a failed `_contents` release makes no further call and leaves the object as it was, and a failed `value` release leaves `value` set after `_contents` was released and cleared |
| `Runtime.DisposeTwiceIsNoOp` | tests/test_dispose.py:8-11 | after a disposal that went through, a second one calls nothing and changes nothing |
| `Runtime.DisposeClears` | tests/test_dispose.py:27-30 | after a disposal, `_contents` and `value` are both None |
| `Runtime.Len` | ctypes_core_prefix.py:172-173 | `len` is the length the bounds check uses: an index reads iff it is below it and not negative |
| `Runtime.DisposeValue` | ctypes_core_prefix.py:139-141 | a set `value` is passed to the native dispose and cleared unless the release raises; otherwise nothing is called or changed |
| `Runtime.GetItem` | ctypes_core_prefix.py:175-178 | indexing raises IndexError iff `key < 0` or `key > length - 1`; otherwise it reads the buffer |
| `Runtime.SetItem` | ctypes_core_prefix.py:180-183 | assignment raises IndexError under the same bounds and keeps the length |
| `Runtime.DelItem` | ctypes_core_prefix.py:185-188 | deletion raises IndexError out of bounds and TypeError in bounds |
| `Runtime.SetThenGet` | ctypes_core_prefix.py:175-183 | an element written reads back, and every other element reads as before |
| `Runtime.IterableToArray` | ctypes_core_prefix.py:213-222 | an argument with `_length_` comes back unchanged with that length; any other becomes a fresh array of its items and their count |
| `Runtime.IterableToArrayIdempotent` | ctypes_core_prefix.py:213-222 | the length returned is the array's own, and converting the result again changes nothing |
| `Runtime.ErrorTextAsWritten` | ctypes_core_prefix.py:99-105 | a null result gives `Unknown Error.`; otherwise the text read, as written, with no native dispose call |
| `Runtime.ErrorTextLeaksBuffer` | ctypes_core_prefix.py:97-104 | as written, the message buffer is never passed to the native dispose |
| `Runtime.ErrorTextDisposing` | ctypes_core_prefix.py:99-105 | corrected: a null result gives `Unknown Error.`; otherwise the buffer is released exactly once, and the text is returned unless the release fails |
| `Bindings.OutKeyword` | gen_wrap.py:266-267 | the `out` keyword a binding receives is present exactly when `out=[...]` is written, and then it lists the outputs |
| `Bindings.PlainBindingDirections` | ctypes_core_prefix.py:43-47 | for a binding without a wrapper and distinct parameter names, RETFUNC marks a parameter as output iff the generator inferred it as one |
| `Bindings.CustomBindingDirections` | gen_wrap.py:266-267 | a binding behind a wrapper marks every parameter as input |

## Left out

- `nivision_parse` is not part of this model: the line scanner, `prescan_file` and `parse_file`. Their output is the `Emitter.Event` sequence. `number_re` and `constant_re` are uninterpreted predicates in `Context.Lexicon`.
- File and configuration I/O: copying the prefix and the suffix, `finish`, `generate`, `__main__`, and `configparser` itself. A `Context.Hints` value already holds a section's options merged with DEFAULT, with the booleans parsed. Output is a sequence of lines.
- `text` and `static_const` are emit methods outside the modelled core.
- The block-comment exclusion of `parse_file` is left out: it belongs to the recogniser.
- Native library loading and all foreign calls: the DLL setup, the missing-symbol fallback of RETFUNC (ctypes_core_prefix.py:52-60), `_imaqDispose` itself, `IMAQdxGetErrorString`, `imaqGetLastError`, and the `ImaqError` message. A native result is a parameter.
- Python's garbage collector calling `__del__` on `Disposed`, `DisposedArray` and `DisposedPointer`, and the attribute delegation of `DisposedPointer`.
- The element conversion `(type*length)(*param)` in `iterableToArray`: the model keeps the items and their count.
- `Enum.__eq__`, `__hash__` and `from_param`, and the `__repr__` methods.
- nivision/core.py, the other hand-written nivision modules, caminfo.py, ctypes_core_suffix.py, setup.py and the test harness.
- `Numerals.ParseInt`: digits are the ASCII ones and whitespace is what `Text.IsSpace` accepts. Python's `int` also takes other Unicode decimal digits and spaces, which do not occur in the Latin-1 headers the generator reads.
- `Wrappers.EveryArgumentIsBound`: it assumes `retarraysize` names an output or an array length, and that no sized parameter is an output or a size parameter. Otherwise the source reads or passes a name it never bound, and it would fail only when the generated module runs. A sized pointer parameter that is not `const`, such as `buf` in `int f(float* buf, int n)` with `arraysize = buf:n`, is such an output (`Wrappers.SizedOutputExample`).
- A raise stops the generator. The lines already written to core.py and to the console before it are not modelled: an `Err` carries only the exception. This covers the class and member lines and the `defined.add` calls of `Enums.Enum` before `int(value, 0)` raises (gen_wrap.py:86-96), the class and `_fields_ = [` lines of `Declarations.StructUnion` before a field type raises (gen_wrap.py:365-370), the binding line of `Functions.Function` before the wrapper raises (gen_wrap.py:276-297), and the lines and diagnostics of the earlier events of `Emitter.Run`.
- Source behaviour that is kept as written:
  - A status function whose outputs do not point to an enumeration gets a public STDFUNC binding with `out=[...]` and no wrapper (gen_wrap.py:256-266, `Functions.StatusFunctionNeedsNoWrapper`).
  - A member name used by two enumerations is added to `defined` again without a diagnostic (gen_wrap.py:95).
  - The `rv.contents` branch (gen_wrap.py:349-350) can never run: `config.get` returns a string or None, never `False`. A pointer return is always `DisposedPointer(rv)`.
  - The diagnostic at gen_wrap.py:343-344 has two `%s` and one argument, so a missing `retarraysize` output raises TypeError instead of printing.
  - The wrapper's parameter list and call arguments walk every declared parameter, including one named `void` (gen_wrap.py:283, 322).
  - An auto-valued enum member is given `prev + 1` directly. `Numerals.ParseFormatInt` proves that this is what `int("%d" % (prev + 1), 0)` reads back.

## Findings

| source | as written | input that shows it | evidently intended | confidence | as-written member | corrected member |
|---|---|---|---|---|---|---|
| ctypes_core_prefix.py:97-105 | `imaqGetErrorText` passes the result of `_imaqGetErrorText` to `imaqDispose`. That result has the `c_void_p` return type, which ctypes hands back as a plain Python int. `imaqDispose` finds neither `_contents` nor `value` on an int and releases nothing. | any non-null error-text pointer, for example address 4096 | the message buffer is released after it is read | not executed | `Runtime.ErrorTextLeaksBuffer` | `Runtime.ErrorTextDisposing` |

=== FILE: bindings.dfy ===
/** How the generated binding records meet the runtime constructors: the
    `out=[...]` list the generator writes (gen_wrap.py:266-267) is what
    RETFUNC turns into output directions (ctypes_core_prefix.py:43-51). */
module Bindings {
  import opened Results
  import opened Context
  import opened HintLists
  import opened Inference
  import opened Runtime

  /** The parameter records of a binding as RETFUNC receives them. */
  function BindParams(ps: seq<Param>, ctypes: seq<string>, defaults: Assoc): (r: seq<BindParam>)
    requires |ctypes| == |ps|
    ensures |r| == |ps|
    ensures forall k :: 0 <= k < |ps| ==> r[k] == BindParam(ps[k].name, ctypes[k], Get(defaults, ps[k].name))
  {
    seq(|ps|, k requires 0 <= k < |ps| => BindParam(ps[k].name, ctypes[k], Get(defaults, ps[k].name)))
  }

  /** The `out` keyword the generated record passes: the outputs, when
      `out=[...]` is written at all. */
  function OutKeyword(custom: bool, outs: seq<string>): (r: Option<seq<string>>)
    ensures r.Some? <==> OutArg(custom, outs) != []
    ensures r.Some? ==> r.value == outs
  {
    if !custom && outs != [] then Some(outs) else None
  }

  predicate DistinctNames(ps: seq<Param>) {
    forall i, j :: 0 <= i < j < |ps| ==> ps[i].name != ps[j].name
  }

  /** A binding without a wrapper marks as outputs exactly the parameters
      the generator inferred as outputs, provided parameter names are
      distinct. */
  lemma PlainBindingDirections(ctx: GenContext, inf: Inference, ps: seq<Param>, ctypes: seq<string>, defaults: Assoc, k: int)
    requires |ctypes| == |ps| && DistinctNames(ps) && 0 <= k < |ps|
    ensures var flags := ParamFlags(BindParams(ps, ctypes, defaults), OutKeyword(false, Outputs(ctx, inf, ps)));
      flags[k].direction == 2 <==> IsOutput(ctx, inf, ps[k])
  {
    var outs := Outputs(ctx, inf, ps);
    if IsOutput(ctx, inf, ps[k]) {
      assert ps[k].name in outs;
    } else {
      assert forall j :: 0 <= j < |ps| && ps[j].name == ps[k].name ==> j == k;
    }
  }

  /** A binding behind a wrapper marks every parameter as an input: the
      wrapper allocates the outputs and passes them by reference. */
  lemma CustomBindingDirections(outs: seq<string>, params: seq<BindParam>, k: int)
    requires 0 <= k < |params|
    ensures ParamFlags(params, OutKeyword(true, outs))[k].direction == 1
  {
  }
}

=== FILE: context.dfy ===
/** The generation context the emitter threads through every declaration
    (the symbol sets and the deferred-constant queue the source imports as
    module globals), the per-name configuration hints, the two recogniser
    regular expressions, and the payloads of the declaration events. */
module Context {
  import opened Results

  /** A constant whose line waits for the structures (`define_after_struct`). */
  datatype Deferred = Deferred(name: string, line: string)

  datatype GenContext = GenContext(
    defined: set<string>,       // names already emitted
    enums: set<string>,         // enumeration type names
    opaques: set<string>,       // forward-declared, never defined structures
    forward: set<string>,       // forward-declared structures
    afterStruct: seq<Deferred>) // deferred constants, in arrival order

  /** The hints of one configuration section, as configparser reads them:
      a section inherits the DEFAULT section's options; a missing option
      reads as `false` or the empty string. */
  datatype Hints = Hints(
    exclude: bool,
    underscored: bool,
    rvdisposed: bool,
    arraysize: string,     // "param:sizeParam, ..."
    retarraysize: string,  // one parameter name
    outparams: string,     // "name, ..."
    inparams: string,      // "name, ..."
    defaults: string)      // "param:literal, ..."

  /** The configuration of one input file: named sections, the DEFAULT
      section, and the `library` option of the `_platform_` section. */
  datatype Config = Config(
    sections: map<string, Hints>,
    fallback: Hints,
    library: Option<string>)

  /** `config.getboolean(name, "exclude", fallback=False)`: a missing
      section reads as the fallback, so DEFAULT does not apply to it. */
  predicate Excluded(cfg: Config, name: string): (r: bool)
    ensures name in cfg.sections ==> (r <==> cfg.sections[name].exclude)
    ensures name !in cfg.sections && name != "DEFAULT" ==> !r
    ensures name !in cfg.sections && name == "DEFAULT" ==> (r <==> cfg.fallback.exclude)
  {
    if name in cfg.sections then cfg.sections[name].exclude
    else name == "DEFAULT" && cfg.fallback.exclude
  }

  /** `config[name]`, or `config['DEFAULT']` when there is no such section. */
  function HintsFor(cfg: Config, name: string): (h: Hints)
    ensures name in cfg.sections ==> h == cfg.sections[name]
    ensures name !in cfg.sections ==> h == cfg.fallback
  {
    if name in cfg.sections then cfg.sections[name] else cfg.fallback
  }

  /** The recogniser's `number_re.match` and `constant_re.match`, which are
      not part of this model and stay uninterpreted. */
  datatype Lexicon = Lexicon(isNumber: string -> bool, isConstant: string -> bool)

  /** One function or function-pointer parameter, as the recogniser splits it. */
  datatype Param = Param(name: string, ctype: string, arr: Option<string>)

  datatype Field = Field(name: string, ctype: string, arr: Option<string>, comment: string)

  datatype EnumMember = EnumMember(name: string, value: Option<string>, comment: string)

  /** What one emit call produced: lines of generated code, diagnostic
      lines for the console, and the updated context. */
  datatype Emission = Emission(lines: seq<string>, diagnostics: seq<string>, ctx: GenContext)

  function Silent(ctx: GenContext): (e: Emission)
    ensures e.lines == [] && e.diagnostics == [] && e.ctx == ctx
  {
    Emission([], [], ctx)
  }

  /** How a context may change: names are only ever added, the structure
      sets are fixed, and deferred constants are only appended. */
  predicate Grows(c: GenContext, c': GenContext) {
    && c.defined <= c'.defined
    && c.enums <= c'.enums
    && c'.opaques == c.opaques
    && c'.forward == c.forward
    && |c.afterStruct| <= |c'.afterStruct|
    && c'.afterStruct[..|c.afterStruct|] == c.afterStruct
  }

  lemma GrowsTransitive(a: GenContext, b: GenContext, c: GenContext)
    requires Grows(a, b) && Grows(b, c)
    ensures Grows(a, c)
  {
    assert c.afterStruct[..|a.afterStruct|] == c.afterStruct[..|b.afterStruct|][..|a.afterStruct|];
  }
}

=== FILE: ctypes.dfy ===
/** The type mapper: a C type spelling and an optional array suffix become
    the spelling of a ctypes type (gen_wrap.py, `ctypes_map` and `c_to_ctype`). */
module TypeMapper {
  import opened Results
  import opened Text

  /** The fixed table of C scalar spellings, `ctypes_map` (the source's
      dictionary display repeats `"int"` with the same entry). The mapper
      below takes the table as a parameter so that its general laws hold of
      any table; the emitter passes this one. */
  const CtypesMap: map<string, string> := map[
    "int" := "c_int",
    "char" := "c_char",
    "wchar_t" := "c_wchar",
    "unsigned char" := "c_ubyte",
    "short" := "c_short",
    "short int" := "c_short",
    "unsigned short" := "c_ushort",
    "unsigned short int" := "c_ushort",
    "unsigned" := "c_uint",
    "unsigned int" := "c_uint",
    "long" := "c_long",
    "unsigned long" := "c_ulong",
    "__int64" := "c_longlong",
    "long long" := "c_longlong",
    "long long int" := "c_longlong",
    "unsigned __int64" := "c_ulonglong",
    "__uint64" := "c_ulonglong",
    "unsigned long long" := "c_ulonglong",
    "float" := "c_float",
    "double" := "c_double",
    "long double" := "c_longdouble",
    "char *" := "c_char_p",
    "char*" := "c_char_p",
    "wchar_t *" := "c_wchar_p",
    "wchar_t*" := "c_wchar_p",
    "void *" := "c_void_p",
    "void*" := "c_void_p",
    "size_t" := "c_size_t",
    "uInt8" := "c_uint8",
    "uInt16" := "c_uint16",
    "uInt32" := "c_uint32",
    "uInt64" := "c_uint64",
    "Int8" := "c_int8",
    "Int16" := "c_int16",
    "Int32" := "c_int32",
    "Int64" := "c_int64",
    "float32" := "c_float",
    "float64" := "c_double"
  ]

  /** The source's table has neither `void` nor the empty spelling, so the
      laws below that exclude them apply to it. */
  lemma TableHasNoVoid()
    ensures "void" !in CtypesMap && "" !in CtypesMap
  {
  }

  /** The spelling with one leading `const` removed: the source tests the
      bare prefix `const` and strips what follows it. */
  function ConstStripped(name: string): (r: string)
    ensures |r| <= |name|
    ensures !StartsWith(name, "const") ==> r == name
  {
    if StartsWith(name, "const") then Strip(name[5..]) else name
  }

  /** The array suffix as the mapper uses it: a non-empty `N` becomes `*N`,
      an empty suffix stays empty, and no suffix stays absent. */
  function ArraySuffix(arr: Option<string>): (r: Option<string>)
    ensures arr.None? <==> r.None?
    ensures r == Some("") <==> arr == Some("")
  {
    match arr
    case Some(a) => if a != "" then Some("*" + a) else Some("")
    case None => None
  }

  /** `arr or ""` */
  function SuffixText(suffix: Option<string>): string {
    match suffix
    case Some(a) => a
    case None => ""
  }

  function PointerTo(inner: Result<string>): (r: Result<string>)
    ensures r.Ok? <==> inner.Ok?
  {
    var t :- inner;
    Ok("ctypes.POINTER(" + t + ")")
  }

  /** `c_to_ctype(name, arr)`. `Err` is the IndexError the source raises
      when the spelling it inspects has become empty. */
  function CToCType(table: map<string, string>, opaques: set<string>, name: string, arr: Option<string>): Result<string>
    decreases if arr == Some("") then 1 else 0, |name|, 1
  {
    MapStripped(table, opaques, ConstStripped(name), ArraySuffix(arr))
  }

  /** The mapper after the `const` prefix is gone and the suffix is prepared. */
  function MapStripped(table: map<string, string>, opaques: set<string>, n: string, suffix: Option<string>): Result<string>
    decreases if suffix == Some("") then 1 else 0, |n|, 0
  {
    if n in table then Ok("ctypes." + table[n] + SuffixText(suffix))
    else if n == "void" then Ok("None")
    else
      var base := if DropLast(n) in opaques then DropLast(n) else n;
      if |base| == 0 then Err("IndexError: string index out of range")
      else
        var pointed :-
          if base[|base| - 1] == '*' then PointerTo(CToCType(table, opaques, base[..|base| - 1], None))
          else Ok(base);
        if suffix == Some("") then PointerTo(CToCType(table, opaques, pointed, None))
        else Ok(pointed + SuffixText(suffix))
  }

  /** A table name maps to its ctypes entry, with `*N` appended only for a
      non-empty array suffix; an empty suffix does not make it a pointer. */
  lemma ScalarMapsToTable(table: map<string, string>, opaques: set<string>, name: string, arr: Option<string>)
    requires ConstStripped(name) in table
    ensures CToCType(table, opaques, name, arr) ==
      Ok("ctypes." + table[ConstStripped(name)]
         + (if arr.Some? && arr.value != "" then "*" + arr.value else ""))
  {
  }

  /** A leading `const` makes no difference, unless what follows it is
      itself prefixed by `const` (only one is stripped). */
  lemma ConstIsInvisible(table: map<string, string>, opaques: set<string>, name: string, arr: Option<string>)
    requires StartsWith(name, "const")
    requires !StartsWith(Strip(name[5..]), "const")
    ensures CToCType(table, opaques, name, arr) == CToCType(table, opaques, Strip(name[5..]), arr)
  {
    assert ConstStripped(name) == ConstStripped(Strip(name[5..]));
  }

  lemma VoidIsNone(table: map<string, string>, opaques: set<string>, arr: Option<string>)
    requires "void" !in table
    ensures CToCType(table, opaques, "void", arr) == Ok("None")
    ensures CToCType(table, opaques, "const void", arr) == Ok("None")
  {
    assert StartsWith("const void", "const");
    assert !StartsWith("void", "const");
    assert "const void"[5..] == " void";
    assert IsSpace(' ') && !IsSpace('v') && !IsSpace('d');
    assert " void"[1..] == "void";
    assert TrimStart(" void") == "void";
    assert TrimEnd("void") == "void";
  }

  /** The empty spelling always raises. */
  lemma EmptySpellingFails(table: map<string, string>, opaques: set<string>, arr: Option<string>)
    requires "" !in table
    ensures CToCType(table, opaques, "", arr).Err?
  {
    assert !StartsWith("", "const");
  }

  /** A name of the opaque set followed by one `*` collapses to the bare
      name: an opaque handle is already a pointer. */
  lemma OpaquePointerCollapses(table: map<string, string>, opaques: set<string>, x: string, arr: Option<string>)
    requires x in opaques && |x| > 0 && !LastIs(x, '*')
    requires !StartsWith(x, "const")
    requires x + "*" !in table
    requires arr != Some("")
    ensures CToCType(table, opaques, x + "*", arr) == Ok(x + SuffixText(ArraySuffix(arr)))
  {
    var n := x + "*";
    assert !StartsWith(n, "const") by {
      if |x| >= 5 {
        assert n[..5] == x[..5];
      } else if |n| == 5 {
        assert n[4] == '*';
      }
    }
    assert DropLast(n) == x;
  }

  /** Any other trailing `*` becomes `ctypes.POINTER` of the mapped
      pointee, followed by the array suffix (`*N` for a non-empty `N`). */
  lemma PointerWrapsPointee(table: map<string, string>, opaques: set<string>, name: string, arr: Option<string>)
    requires !StartsWith(name, "const") && name !in table && LastIs(name, '*')
    requires DropLast(name) !in opaques
    requires arr != Some("")
    ensures CToCType(table, opaques, name, arr) ==
      match CToCType(table, opaques, DropLast(name), None)
      case Ok(t) => Ok("ctypes.POINTER(" + t + ")" + SuffixText(ArraySuffix(arr)))
      case Err(e) => Err(e)
  {
    assert name != "void" by {
      assert name[|name| - 1] == '*';
    }
  }

  /** An empty array suffix on a name outside the table wraps the mapped
      name in `ctypes.POINTER`. */
  lemma EmptySuffixIsPointer(table: map<string, string>, opaques: set<string>, name: string)
    requires !StartsWith(name, "const") && name !in table && name != "void"
    requires |name| > 0 && !LastIs(name, '*') && DropLast(name) !in opaques
    ensures CToCType(table, opaques, name, Some("")) == PointerTo(CToCType(table, opaques, name, None))
  {
  }

  /** A user type name outside the table is passed through unchanged,
      followed by the array suffix (`*N` for a non-empty `N`). */
  lemma PlainNameUnchanged(table: map<string, string>, opaques: set<string>, x: string, arr: Option<string>)
    requires |x| > 0 && !LastIs(x, '*') && !StartsWith(x, "const") && x != "void"
    requires x !in table && DropLast(x) !in opaques
    requires arr != Some("")
    ensures CToCType(table, opaques, x, arr) == Ok(x + SuffixText(ArraySuffix(arr)))
  {
  }

  /** `c_to_ctype("PointFloat", "4")`, the usual structure-array field,
      gives `PointFloat*4`; `c_to_ctype("Foo*", "4")` gives
      `ctypes.POINTER(Foo)*4`. */
  lemma ArrayOfNamedType(table: map<string, string>, opaques: set<string>)
    requires "PointFloat" !in table && "Foo*" !in table && "Foo" !in table
    requires "PointFloa" !in opaques && "Foo" !in opaques && "Fo" !in opaques
    ensures CToCType(table, opaques, "PointFloat", Some("4")) == Ok("PointFloat*4")
    ensures CToCType(table, opaques, "Foo*", Some("4")) == Ok("ctypes.POINTER(Foo)*4")
  {
    assert !StartsWith("PointFloat", "const") by { assert "PointFloat"[0] != "const"[0]; }
    assert !StartsWith("Foo*", "const") && !StartsWith("Foo", "const") by { assert "Foo"[0] != "const"[0]; }
    assert DropLast("PointFloat") == "PointFloa";
    assert DropLast("Foo*") == "Foo" && DropLast("Foo") == "Fo";
    PlainNameUnchanged(table, opaques, "PointFloat", Some("4"));
    PlainNameUnchanged(table, opaques, "Foo", None);
    PointerWrapsPointee(table, opaques, "Foo*", Some("4"));
    assert SuffixText(ArraySuffix(Some("4"))) == "*4";
    assert "Foo" + SuffixText(ArraySuffix(None)) == "Foo";
    assert "PointFloat" + "*4" == "PointFloat*4";
    assert "ctypes.POINTER(" + "Foo" + ")" + "*4" == "ctypes.POINTER(Foo)*4";
  }

  function Stars(k: nat): (r: string)
    ensures |r| == k
    ensures forall i :: 0 <= i < k ==> r[i] == '*'
  {
    Repeat('*', k)
  }

  function Wrap(k: nat, inner: string): string {
    if k == 0 then inner else "ctypes.POINTER(" + Wrap(k - 1, inner) + ")"
  }

  /** Appending stars to a name not prefixed by `const` keeps it so. */
  lemma StarsKeepNoConst(x: string, k: nat)
    requires |x| > 0 && !StartsWith(x, "const")
    ensures !StartsWith(x + Stars(k), "const")
  {
    var n := x + Stars(k);
    if |x| >= 5 {
      assert n[..5] == x[..5];
    } else if |n| >= 5 {
      assert n[|x|] == '*';
      assert "const"[|x|] != '*';
    }
  }

  lemma StarsSnoc(x: string, k: nat)
    requires k > 0
    ensures x + Stars(k) == (x + Stars(k - 1)) + "*"
    ensures DropLast(x + Stars(k)) == x + Stars(k - 1)
  {
    var a, b := Stars(k), Stars(k - 1);
    assert a == b + "*";
    assert x + a == (x + b) + "*";
  }

  /** One more star wraps one more `ctypes.POINTER`. */
  lemma ChainStep(table: map<string, string>, opaques: set<string>, x: string, k: nat)
    requires k > 0 && |x| > 0 && !StartsWith(x, "const")
    requires x + Stars(k) !in table && x + Stars(k - 1) !in opaques
    requires CToCType(table, opaques, x + Stars(k - 1), None) == Ok(Wrap(k - 1, x))
    ensures CToCType(table, opaques, x + Stars(k), None) == Ok(Wrap(k, x))
  {
    StarsSnoc(x, k);
    StarsKeepNoConst(x, k);
    PointerWrapsPointee(table, opaques, x + Stars(k), None);
    assert "ctypes.POINTER(" + Wrap(k - 1, x) + ")" + "" == Wrap(k, x);
  }

  /** A plain user type name `X` — outside the table, not `void`, not
      opaque-related, at any pointer depth — followed by `k` stars maps to
      `k` nested `ctypes.POINTER` around `X`. */
  lemma {:induction false} PointerChain(table: map<string, string>, opaques: set<string>, x: string, k: nat)
    requires |x| > 0 && !LastIs(x, '*') && !StartsWith(x, "const") && x != "void"
    requires forall j :: 0 <= j <= k ==> x + Stars(j) !in table
    requires forall j :: 0 <= j <= k ==> DropLast(x + Stars(j)) !in opaques
    ensures CToCType(table, opaques, x + Stars(k), None) == Ok(Wrap(k, x))
    decreases k
  {
    if k == 0 {
      assert x + Stars(0) == x;
      PlainNameUnchanged(table, opaques, x, None);
    } else {
      PointerChain(table, opaques, x, k - 1);
      StarsSnoc(x, k);
      ChainStep(table, opaques, x, k);
    }
  }
}

=== FILE: declarations.dfy ===
/** Type declarations: `typedef` aliases and forward classes,
    function-pointer types, structure and union layouts, and the opaque
    structure block written first (gen_wrap.py:19-33, 163-191, 360-378). */
module Declarations {
  import opened Results
  import opened Text
  import opened Ordering
  import opened TypeMapper
  import opened Context

  /** `c_to_ctype` with the generator's own table and the current opaque set. */
  function MapType(ctx: GenContext, ctype: string, arr: Option<string>): Result<string> {
    CToCType(CtypesMap, ctx.opaques, ctype, arr)
  }

  /** `typedef(name, typedef, arr)` */
  function Typedef(ctx: GenContext, cfg: Config, name: string, typedef: string, arr: Option<string>): (r: Result<Emission>)
    ensures Excluded(cfg, name) || name in ctx.opaques ==> r == Ok(Silent(ctx))
    ensures r.Ok? ==> Grows(ctx, r.value.ctx) && r.value.diagnostics == []
    ensures !Excluded(cfg, name) && name !in ctx.opaques ==>
      if StartsWith(typedef, "struct") then
        r == Ok(Emission(["class " + name + "(ctypes.Structure): pass"], [], ctx.(defined := ctx.defined + {name})))
      else if StartsWith(typedef, "union") then
        r == Ok(Emission(["class " + name + "(ctypes.Union): pass"], [], ctx.(defined := ctx.defined + {name})))
      else if name in CtypesMap then
        r == Ok(Silent(ctx))
      else
        && (r.Ok? <==> MapType(ctx, typedef, arr).Ok?)
        && (r.Ok? ==> r.value == Emission([name + " = " + MapType(ctx, typedef, arr).value], [], ctx.(defined := ctx.defined + {name})))
  {
    if Excluded(cfg, name) || name in ctx.opaques then Ok(Silent(ctx))
    else if StartsWith(typedef, "struct") then
      Ok(Emission(["class " + name + "(ctypes.Structure): pass"], [], ctx.(defined := ctx.defined + {name})))
    else if StartsWith(typedef, "union") then
      Ok(Emission(["class " + name + "(ctypes.Union): pass"], [], ctx.(defined := ctx.defined + {name})))
    else if name in CtypesMap then Ok(Silent(ctx))
    else
      var t :- MapType(ctx, typedef, arr);
      Ok(Emission([name + " = " + t], [], ctx.(defined := ctx.defined + {name})))
  }

  /** The parameters a prototype lists: all but those named `void`. */
  function NonVoid(params: seq<Param>): (r: seq<Param>)
    ensures |r| <= |params|
    ensures forall k :: 0 <= k < |r| ==> r[k].name != "void" && r[k] in params
    ensures forall p :: p in params && p.name != "void" ==> p in r
    decreases |params|
  {
    if |params| == 0 then []
    else if params[0].name == "void" then NonVoid(params[1..])
    else [params[0]] + NonVoid(params[1..])
  }

  /** The filter distributes over concatenation, so the kept parameters follow the prototype. */
  lemma {:induction false} NonVoidConcat(a: seq<Param>, b: seq<Param>)
    ensures NonVoid(a + b) == NonVoid(a) + NonVoid(b)
    decreases |a|
  {
    if |a| == 0 {
      assert a + b == b;
    } else {
      assert (a + b)[1..] == a[1..] + b;
      NonVoidConcat(a[1..], b);
    }
  }

  /** The mapped types of `params`, in order; `Err` as soon as one fails. */
  function MapParams(ctx: GenContext, params: seq<Param>): (r: Result<seq<string>>)
    ensures r.Ok? <==> forall k :: 0 <= k < |params| ==> MapType(ctx, params[k].ctype, params[k].arr).Ok?
    ensures r.Ok? ==> |r.value| == |params|
    ensures r.Ok? ==> forall k :: 0 <= k < |params| ==> r.value[k] == MapType(ctx, params[k].ctype, params[k].arr).value
    decreases |params|
  {
    if |params| == 0 then Ok([])
    else
      var rest := MapParams(ctx, params[1..]);
      assert forall k :: 1 <= k < |params| ==> params[k] == params[1..][k - 1];
      match MapType(ctx, params[0].ctype, params[0].arr)
      case Err(e) => Err(e)
      case Ok(t) =>
        match rest
        case Err(e) =>
          assert exists k :: 0 <= k < |params[1..]| && !MapType(ctx, params[1..][k].ctype, params[1..][k].arr).Ok?;
          Err(e)
        case Ok(ts) => Ok([t] + ts)
  }

  /** The parameter types, each preceded by a comma and a space, or nothing. */
  function ParamSuffix(types: seq<string>): (r: string)
    ensures types == [] <==> r == ""
  {
    if types == [] then "" else ", " + Join(", ", types)
  }

  /** `typedef_function(name, restype, params)` */
  function TypedefFunction(ctx: GenContext, cfg: Config, name: string, restype: string, params: seq<Param>): (r: Result<Emission>)
    ensures Excluded(cfg, name) || name in ctx.opaques ==> r == Ok(Silent(ctx))
    ensures r.Ok? ==> Grows(ctx, r.value.ctx) && r.value.diagnostics == []
    ensures !Excluded(cfg, name) && name !in ctx.opaques ==>
      && (r.Ok? <==> MapType(ctx, restype, None).Ok? && MapParams(ctx, NonVoid(params)).Ok?)
      && (r.Ok? ==> r.value == Emission(
            [name + " = ctypes.CFUNCTYPE(" + MapType(ctx, restype, None).value
             + ParamSuffix(MapParams(ctx, NonVoid(params)).value) + ")"],
            [], ctx.(defined := ctx.defined + {name})))
  {
    if Excluded(cfg, name) || name in ctx.opaques then Ok(Silent(ctx))
    else
      var types :- MapParams(ctx, NonVoid(params));
      var res :- MapType(ctx, restype, None);
      Ok(Emission([name + " = ctypes.CFUNCTYPE(" + res + ParamSuffix(types) + ")"], [], ctx.(defined := ctx.defined + {name})))
  }

  function FieldLine(name: string, ctype: string): string {
    "    (\"" + name + "\", " + ctype + "),"
  }

  /** The `_fields_` entries of `fields`, in field order. */
  function FieldLines(ctx: GenContext, fields: seq<Field>): (r: Result<seq<string>>)
    ensures r.Ok? <==> forall k :: 0 <= k < |fields| ==> MapType(ctx, fields[k].ctype, fields[k].arr).Ok?
    ensures r.Ok? ==> |r.value| == |fields|
    ensures r.Ok? ==> forall k :: 0 <= k < |fields| ==>
      r.value[k] == FieldLine(fields[k].name, MapType(ctx, fields[k].ctype, fields[k].arr).value)
    decreases |fields|
  {
    if |fields| == 0 then Ok([])
    else
      var rest := FieldLines(ctx, fields[1..]);
      assert forall k :: 1 <= k < |fields| ==> fields[k] == fields[1..][k - 1];
      match MapType(ctx, fields[0].ctype, fields[0].arr)
      case Err(e) => Err(e)
      case Ok(t) =>
        match rest
        case Err(e) =>
          assert exists k :: 0 <= k < |fields[1..]| && !MapType(ctx, fields[1..][k].ctype, fields[1..][k].arr).Ok?;
          Err(e)
        case Ok(ls) => Ok([FieldLine(fields[0].name, t)] + ls)
  }

  /** The `_fields_` assignment of a structure with the given field lines. */
  function Layout(name: string, fieldLines: seq<string>): seq<string> {
    [name + "._fields_ = ["] + fieldLines + ["    ]"]
  }

  /** `structunion(ctype, name, fields)`: the class line only for a name
      not yet defined, then the layout. */
  function StructUnion(ctx: GenContext, cfg: Config, kind: string, name: string, fields: seq<Field>): (r: Result<Emission>)
    ensures Excluded(cfg, name) || name in ctx.opaques ==> r == Ok(Silent(ctx))
    ensures r.Ok? ==> Grows(ctx, r.value.ctx) && r.value.diagnostics == []
    ensures !Excluded(cfg, name) && name !in ctx.opaques ==>
      && (r.Ok? <==> FieldLines(ctx, fields).Ok?)
      && (r.Ok? ==>
           && r.value.lines ==
                (if name in ctx.defined then [] else ["class " + name + "(ctypes." + kind + "): pass"])
                + Layout(name, FieldLines(ctx, fields).value)
           && r.value.ctx == ctx.(defined := ctx.defined + {name}))
  {
    if Excluded(cfg, name) || name in ctx.opaques then Ok(Silent(ctx))
    else
      var header := if name in ctx.defined then [] else ["class " + name + "(ctypes." + kind + "): pass"];
      var body :- FieldLines(ctx, fields);
      Ok(Emission(header + Layout(name, body), [], ctx.(defined := ctx.defined + {name})))
  }

  function Struct(ctx: GenContext, cfg: Config, name: string, fields: seq<Field>): Result<Emission> {
    StructUnion(ctx, cfg, "Structure", name, fields)
  }

  function Union(ctx: GenContext, cfg: Config, name: string, fields: seq<Field>): Result<Emission> {
    StructUnion(ctx, cfg, "Union", name, fields)
  }

  /** A structure forward-declared by `typedef struct` gets its layout
      later without a second class line, and one emitted a second time
      repeats only its layout. */
  lemma LayoutAfterDeclaration(ctx: GenContext, cfg: Config, name: string, tag: string, fields: seq<Field>)
    requires !Excluded(cfg, name) && name !in ctx.opaques && StartsWith(tag, "struct")
    requires FieldLines(ctx, fields).Ok?
    ensures var d := Typedef(ctx, cfg, name, tag, None).value;
      var s := Struct(d.ctx, cfg, name, fields).value;
      && d.lines == ["class " + name + "(ctypes.Structure): pass"]
      && s.lines == Layout(name, FieldLines(ctx, fields).value)
      && s.ctx == d.ctx
  {
    var d := Typedef(ctx, cfg, name, tag, None).value;
    assert d.ctx == ctx.(defined := ctx.defined + {name});
    FieldsIgnoreDefined(ctx, d.ctx, fields);
    LayoutOfDefined(d.ctx, cfg, "Structure", name, fields);
  }

  /** Field mapping reads only the opaque set of the context. */
  lemma {:induction false} FieldsIgnoreDefined(c: GenContext, c': GenContext, fields: seq<Field>)
    requires c'.opaques == c.opaques
    ensures FieldLines(c', fields) == FieldLines(c, fields)
    decreases |fields|
  {
    if |fields| > 0 {
      FieldsIgnoreDefined(c, c', fields[1..]);
    }
  }

  /** Emitting the same structure twice: the second time has no class line. */
  lemma SecondLayoutHasNoClass(ctx: GenContext, cfg: Config, kind: string, name: string, fields: seq<Field>)
    requires !Excluded(cfg, name) && name !in ctx.opaques
    requires StructUnion(ctx, cfg, kind, name, fields).Ok?
    ensures var first := StructUnion(ctx, cfg, kind, name, fields).value;
      var second := StructUnion(first.ctx, cfg, kind, name, fields).value;
      && StructUnion(first.ctx, cfg, kind, name, fields).Ok?
      && second.lines == Layout(name, FieldLines(ctx, fields).value)
      && second.ctx == first.ctx
  {
    var first := StructUnion(ctx, cfg, kind, name, fields).value;
    FieldsIgnoreDefined(ctx, first.ctx, fields);
    LayoutOfDefined(first.ctx, cfg, kind, name, fields);
  }

  /** A structure already defined is emitted as its layout alone and
      leaves the context as it is. */
  lemma LayoutOfDefined(c: GenContext, cfg: Config, kind: string, name: string, fields: seq<Field>)
    requires !Excluded(cfg, name) && name !in c.opaques && name in c.defined
    requires FieldLines(c, fields).Ok?
    ensures StructUnion(c, cfg, kind, name, fields) == Ok(Emission(Layout(name, FieldLines(c, fields).value), [], c))
  {
    assert c.(defined := c.defined + {name}) == c;
    assert [] + Layout(name, FieldLines(c, fields).value) == Layout(name, FieldLines(c, fields).value);
  }

  const Rule: string := Repeat('#', 78)

  /** `block_comment(comment)` */
  function BlockComment(title: string): (r: seq<string>)
    ensures |r| == 3 && r[0] == r[2] && |r[0]| == 78
    ensures forall k :: 0 <= k < 78 ==> r[0][k] == '#'
    ensures r[1] == "# " + title
  {
    [Rule, "# " + title, Rule]
  }

  /** `opaque_struct(name)` */
  function OpaqueStruct(name: string): string {
    "class " + name + "(Disposed): pass"
  }

  /** The block the generator writes after the runtime prefix: a banner,
      then one `Disposed` class per opaque structure, in sorted order
      (`names` is that order). */
  method OpaquePrelude(opaques: set<string>) returns (names: seq<string>, lines: seq<string>)
    ensures |names| == |opaques| && forall x :: x in names <==> x in opaques
    ensures forall i, j :: 0 <= i < j < |names| ==> Less(names[i], names[j])
    ensures |lines| == 3 + |names|
    ensures lines[..3] == BlockComment("Opaque Structures")
    ensures forall k :: 0 <= k < |names| ==> lines[3 + k] == OpaqueStruct(names[k])
  {
    names := SortedNames(opaques);
    var classes := seq(|names|, k requires 0 <= k < |names| => OpaqueStruct(names[k]));
    lines := BlockComment("Opaque Structures") + classes;
  }

  /** Different names give different class lines. */
  lemma OpaqueStructInjective(a: string, b: string)
    requires OpaqueStruct(a) == OpaqueStruct(b)
    ensures a == b
  {
    var p, q := OpaqueStruct(a), OpaqueStruct(b);
    assert p[6..|p| - 16] == a;
    assert q[6..|q| - 16] == b;
  }
}

=== FILE: defines.dfy ===
/** `#define` constants: classification in a fixed order, then immediate
    emission or deferral until the structures exist (gen_wrap.py:35-69). */
module Constants {
  import opened Results
  import opened Text
  import opened Context

  /** The shapes a constant's value is tried against, in the source's order. */
  datatype ConstKind =
    | TrueLit     // TRUE
    | FalseLit    // FALSE
    | RgbInit     // {r, g, b, a} under an IMAQ_INIT_RGB* name
    | MakeCall    // imaqMake...(...)
    | StringLit   // "..."
    | NumberLit   // number_re
    | Identifier  // constant_re
    | Invalid

  predicate IsRgbBrace(name: string, value: string) {
    StartsWith(name, "IMAQ_INIT_RGB") && |value| > 0 && value[0] == '{' && value[|value| - 1] == '}'
  }

  /** The classification. `Err` is the IndexError of `value[0]` on an
      empty value, reached at the brace test for an IMAQ_INIT_RGB name and
      at the string test otherwise. */
  function Classify(lex: Lexicon, name: string, value: string): (r: Result<ConstKind>)
    ensures r.Err? <==> value == ""
    ensures r == Ok(TrueLit) <==> value == "TRUE"
    ensures r == Ok(FalseLit) <==> value == "FALSE"
    ensures r == Ok(RgbInit) <==> IsRgbBrace(name, value)
    ensures r == Ok(MakeCall) <==> StartsWith(value, "imaqMake") && !IsRgbBrace(name, value)
    ensures r == Ok(StringLit) ==> value[0] == '"'
    ensures r == Ok(NumberLit) ==> lex.isNumber(value) && value[0] != '"' && !StartsWith(value, "imaqMake")
    ensures r == Ok(Identifier) ==>
      lex.isConstant(value) && !lex.isNumber(value) && value[0] != '"' && !StartsWith(value, "imaqMake")
    ensures r == Ok(Invalid) ==>
      && value != "TRUE" && value != "FALSE" && !IsRgbBrace(name, value)
      && !StartsWith(value, "imaqMake") && value[0] != '"'
      && !lex.isNumber(value) && !lex.isConstant(value)
  {
    if value == "TRUE" then Ok(TrueLit)
    else if value == "FALSE" then Ok(FalseLit)
    else if StartsWith(name, "IMAQ_INIT_RGB") && |value| == 0 then Err("IndexError: string index out of range")
    else if IsRgbBrace(name, value) then Ok(RgbInit)
    else if StartsWith(value, "imaqMake") then Ok(MakeCall)
    else if |value| == 0 then Err("IndexError: string index out of range")
    else if value[0] == '"' then Ok(StringLit)
    else if lex.isNumber(value) then Ok(NumberLit)
    else if lex.isConstant(value) then Ok(Identifier)
    else Ok(Invalid)
  }

  /** The Python text of a classified value (`clean`). */
  function CleanValue(kind: ConstKind, value: string): string
    requires kind == RgbInit ==> |value| >= 2
  {
    match kind
    case TrueLit => "True"
    case FalseLit => "False"
    case RgbInit => "RGBValue(" + Join(" ", Words(Strip(value[1..|value| - 1]))) + ")"
    case MakeCall => DropFirst(value, 8)
    case StringLit => "b" + value
    case NumberLit => value
    case Identifier => value
    case Invalid => ""
  }

  /** Whether a classified constant waits for the structures: compound
      values always do, an identifier does while its referent is undefined. */
  predicate Waits(kind: ConstKind, value: string, defined: set<string>) {
    kind == RgbInit || kind == MakeCall || (kind == Identifier && value !in defined)
  }

  /** `define(name, value, comment)` */
  function Define(ctx: GenContext, cfg: Config, lex: Lexicon, name: string, value: string): (r: Result<Emission>)
    ensures Excluded(cfg, name) || name in ctx.opaques ==> r == Ok(Silent(ctx))
    ensures !Excluded(cfg, name) && name !in ctx.opaques ==> (r.Err? <==> value == "")
    ensures r.Ok? ==> Grows(ctx, r.value.ctx)
    ensures r.Ok? && !Excluded(cfg, name) && name !in ctx.opaques ==>
      match Classify(lex, name, value).value
      case Invalid =>
        r.value == Emission([], ["Invalid #define: " + name], ctx)
      case kind =>
        if Waits(kind, value, ctx.defined) then
          r.value.lines == [] && r.value.diagnostics == []
          && r.value.ctx == ctx.(afterStruct := ctx.afterStruct + [Deferred(name, name + " = " + CleanValue(kind, value))])
        else
          r.value.lines == [name + " = " + CleanValue(kind, value)] && r.value.diagnostics == []
          && r.value.ctx == ctx.(defined := ctx.defined + {name})
  {
    if Excluded(cfg, name) || name in ctx.opaques then Ok(Silent(ctx))
    else
      var kind :- Classify(lex, name, value);
      if kind == Invalid then Ok(Emission([], ["Invalid #define: " + name], ctx))
      else
        var line := name + " = " + CleanValue(kind, value);
        if Waits(kind, value, ctx.defined) then
          Ok(Silent(ctx.(afterStruct := ctx.afterStruct + [Deferred(name, line)])))
        else
          Ok(Emission([line], [], ctx.(defined := ctx.defined + {name})))
  }

  /** A constant is recorded as defined exactly when it is emitted now, and
      queued exactly when it waits: never both. */
  lemma DefinedIffEmitted(ctx: GenContext, cfg: Config, lex: Lexicon, name: string, value: string)
    requires !Excluded(cfg, name) && name !in ctx.opaques && name !in ctx.defined
    requires Define(ctx, cfg, lex, name, value).Ok?
    ensures var e := Define(ctx, cfg, lex, name, value).value;
      && (name in e.ctx.defined <==> |e.lines| == 1)
      && (|e.ctx.afterStruct| == |ctx.afterStruct| + 1 <==> !(name in e.ctx.defined) && e.diagnostics == [])
      && (e.diagnostics != [] ==> e.ctx == ctx)
  {
  }

  /** An identifier constant is emitted at once exactly when the name it
      refers to is already defined. */
  lemma IdentifierWaitsForReferent(ctx: GenContext, cfg: Config, lex: Lexicon, name: string, value: string)
    requires !Excluded(cfg, name) && name !in ctx.opaques
    requires Classify(lex, name, value) == Ok(Identifier)
    ensures Define(ctx, cfg, lex, name, value).Ok?
    ensures var e := Define(ctx, cfg, lex, name, value).value;
      (e.lines == [name + " = " + value]) <==> value in ctx.defined
  {
  }
}

=== FILE: emitter.dfy ===
/** The emitter as a whole: the opaque-structure prelude it writes when it
    is created (gen_wrap.py:11-21, 27-35), and the declaration events the
    recogniser feeds it, each dispatched to its emit method and threaded
    through one generation context. */
module Emitter {
  import opened Results
  import opened Context
  import opened Constants
  import opened Enums
  import opened Declarations
  import opened Functions

  /** The declarations the recogniser reports, in header order. */
  datatype Event =
    | DefineEv(name: string, value: string)
    | EnumEv(name: string, members: seq<EnumMember>)
    | TypedefEv(name: string, typedef: string, arr: Option<string>)
    | TypedefFunctionEv(name: string, restype: string, params: seq<Param>)
    | FunctionEv(name: string, restype: string, params: seq<Param>)
    | StructEv(name: string, fields: seq<Field>)
    | UnionEv(name: string, fields: seq<Field>)
    | BlockCommentEv(title: string)

  /** The name an event declares; a block comment declares none. */
  function Declares(ev: Event): Option<string> {
    match ev
    case BlockCommentEv(_) => None
    case _ => Some(ev.name)
  }

  /** The emitter's construction: the prelude lines. The opaque classes
      are only printed; no name is recorded as defined. */
  method Start(ctx: GenContext) returns (e: Emission)
    ensures e.ctx == ctx
    ensures e.diagnostics == []
    ensures |e.lines| == 3 + |ctx.opaques|
    ensures e.lines[..3] == BlockComment("Opaque Structures")
    ensures forall x :: x in ctx.opaques <==> OpaqueStruct(x) in e.lines[3..]
    ensures Grows(ctx, e.ctx)
  {
    var names, lines := OpaquePrelude(ctx.opaques);
    forall x | OpaqueStruct(x) in lines[3..] ensures x in ctx.opaques {
      var k :| 0 <= k < |lines[3..]| && lines[3..][k] == OpaqueStruct(x);
      assert lines[3 + k] == OpaqueStruct(names[k]);
      OpaqueStructInjective(x, names[k]);
    }
    forall x | x in ctx.opaques ensures OpaqueStruct(x) in lines[3..] {
      var k :| 0 <= k < |names| && names[k] == x;
      assert lines[3..][k] == lines[3 + k];
    }
    e := Emission(lines, [], ctx);
  }

  /** One event, handed to its emit method. */
  function Emit(ctx: GenContext, cfg: Config, lex: Lexicon, ev: Event): (r: Result<Emission>)
    ensures r.Ok? ==> Grows(ctx, r.value.ctx)
    ensures ev.BlockCommentEv? ==> r == Ok(Emission(BlockComment(ev.title), [], ctx))
    ensures Declares(ev).Some? && (Excluded(cfg, ev.name) || ev.name in ctx.opaques) ==> r == Ok(Silent(ctx))
  {
    match ev
    case DefineEv(name, value) => Define(ctx, cfg, lex, name, value)
    case EnumEv(name, members) => Enum(ctx, cfg, name, members)
    case TypedefEv(name, typedef, arr) => Typedef(ctx, cfg, name, typedef, arr)
    case TypedefFunctionEv(name, restype, params) => TypedefFunction(ctx, cfg, name, restype, params)
    case FunctionEv(name, restype, params) => Function(ctx, cfg, name, restype, params)
    case StructEv(name, fields) => Struct(ctx, cfg, name, fields)
    case UnionEv(name, fields) => Union(ctx, cfg, name, fields)
    case BlockCommentEv(title) => Ok(Emission(BlockComment(title), [], ctx))
  }

  /** The emit methods of one configuration and recogniser, as a step
      from a context and an event to an emission. */
  function Step(cfg: Config, lex: Lexicon): (GenContext, Event) -> Result<Emission> {
    (c: GenContext, ev: Event) => Emit(c, cfg, lex, ev)
  }

  /** A step that only ever grows the context. */
  ghost predicate StepGrows(step: (GenContext, Event) -> Result<Emission>) {
    forall c, ev :: step(c, ev).Ok? ==> Grows(c, step(c, ev).value.ctx)
  }

  lemma EmitStepGrows(cfg: Config, lex: Lexicon)
    ensures StepGrows(Step(cfg, lex))
  {
    forall c, ev | Step(cfg, lex)(c, ev).Ok? ensures Grows(c, Step(cfg, lex)(c, ev).value.ctx) {
      assert Step(cfg, lex)(c, ev) == Emit(c, cfg, lex, ev);
    }
  }

  /** Output of one emission followed by another's. */
  function Then(x: Emission, y: Emission): Emission {
    Emission(x.lines + y.lines, x.diagnostics + y.diagnostics, y.ctx)
  }

  /** The events in order, each seeing the context the previous left; the
      first exception ends the run. */
  function Run(step: (GenContext, Event) -> Result<Emission>, ctx: GenContext, evs: seq<Event>): (r: Result<Emission>)
    ensures StepGrows(step) && r.Ok? ==> Grows(ctx, r.value.ctx)
    ensures evs == [] ==> r == Ok(Silent(ctx))
    decreases |evs|
  {
    if evs == [] then Ok(Silent(ctx))
    else
      var e :- step(ctx, evs[0]);
      var rest :- Run(step, e.ctx, evs[1..]);
      GrowsWhen(StepGrows(step), ctx, e.ctx, rest.ctx);
      Ok(Then(e, rest))
  }

  lemma GrowsWhen(cond: bool, a: GenContext, b: GenContext, c: GenContext)
    requires cond ==> Grows(a, b) && Grows(b, c)
    ensures cond ==> Grows(a, c)
  {
    if cond {
      GrowsTransitive(a, b, c);
    }
  }

  /** `parse_file` driving the emitter over one header's events. */
  function Generate(ctx: GenContext, cfg: Config, lex: Lexicon, evs: seq<Event>): (r: Result<Emission>)
    ensures r.Ok? ==> Grows(ctx, r.value.ctx)
  {
    EmitStepGrows(cfg, lex);
    Run(Step(cfg, lex), ctx, evs)
  }

  /** A run over two event sequences is the run over the first followed by
      the run over the second from where the first left off. */
  lemma {:induction false} RunConcat(step: (GenContext, Event) -> Result<Emission>, ctx: GenContext, a: seq<Event>, b: seq<Event>)
    ensures Run(step, ctx, a + b) ==
      match Run(step, ctx, a)
      case Err(e) => Err(e)
      case Ok(x) =>
        match Run(step, x.ctx, b)
        case Err(e) => Err(e)
        case Ok(y) => Ok(Then(x, y))
    decreases |a|
  {
    if a == [] {
      assert a + b == b;
      match Run(step, ctx, b)
      case Err(_) =>
      case Ok(y) =>
        assert [] + y.lines == y.lines && [] + y.diagnostics == y.diagnostics;
    } else {
      assert (a + b)[0] == a[0];
      assert (a + b)[1..] == a[1..] + b;
      match step(ctx, a[0])
      case Err(_) =>
      case Ok(e) =>
        RunConcat(step, e.ctx, a[1..], b);
        match Run(step, e.ctx, a[1..])
        case Err(_) =>
        case Ok(x) =>
          match Run(step, x.ctx, b)
          case Err(_) =>
          case Ok(y) =>
            assert Then(e, Then(x, y)) == Then(Then(e, x), y);
    }
  }

  /** An event the step always answers with silence can be dropped from
      any run. */
  lemma SilentEventIsInvisible(step: (GenContext, Event) -> Result<Emission>, ctx: GenContext, a: seq<Event>, ev: Event, b: seq<Event>)
    requires forall c :: step(c, ev) == Ok(Silent(c))
    ensures Run(step, ctx, a + [ev] + b) == Run(step, ctx, a + b)
  {
    RunConcat(step, ctx, a + [ev], b);
    RunConcat(step, ctx, a, [ev]);
    RunConcat(step, ctx, a, b);
    match Run(step, ctx, a)
    case Err(_) =>
    case Ok(x) =>
      assert Run(step, x.ctx, [ev]) == Ok(Silent(x.ctx)) by {
        assert [ev][1..] == [];
      }
      assert Then(x, Silent(x.ctx)) == x;
  }

  /** An event whose name is excluded by the configuration leaves no trace:
      the run proceeds as if it were absent. */
  lemma ExcludedEventIsInvisible(ctx: GenContext, cfg: Config, lex: Lexicon, a: seq<Event>, ev: Event, b: seq<Event>)
    requires Declares(ev).Some? && Excluded(cfg, ev.name)
    ensures Generate(ctx, cfg, lex, a + [ev] + b) == Generate(ctx, cfg, lex, a + b)
  {
    var step := Step(cfg, lex);
    forall c ensures step(c, ev) == Ok(Silent(c)) {
      assert step(c, ev) == Emit(c, cfg, lex, ev);
    }
    SilentEventIsInvisible(step, ctx, a, ev, b);
  }
}

=== FILE: enums.dfy ===
/** Enumerations: guard members dropped, missing values numbered one past
    the previous emitted member, and the names recorded (gen_wrap.py:81-99). */
module Enums {
  import opened Results
  import opened Text
  import opened Numerals
  import opened Context

  /** The sentinel members the generator never emits. */
  predicate IsGuard(name: string) {
    EndsWith(name, "SIZE_GUARD") || EndsWith(name, "Guard")
  }

  /** The members that are not guards, in declaration order. */
  function Kept(members: seq<EnumMember>): (r: seq<EnumMember>)
    ensures |r| <= |members|
    ensures forall k :: 0 <= k < |r| ==> !IsGuard(r[k].name) && r[k] in members
    ensures forall m :: m in members && !IsGuard(m.name) ==> m in r
    decreases |members|
  {
    if |members| == 0 then []
    else if IsGuard(members[0].name) then Kept(members[1..])
    else [members[0]] + Kept(members[1..])
  }

  lemma {:induction false} KeptConcat(a: seq<EnumMember>, b: seq<EnumMember>)
    ensures Kept(a + b) == Kept(a) + Kept(b)
    decreases |a|
  {
    if |a| == 0 {
      assert a + b == b;
    } else {
      assert (a + b)[1..] == a[1..] + b;
      KeptConcat(a[1..], b);
    }
  }

  /** One emitted member: its name, the value text printed, and the number
      that text denotes. */
  datatype EnumEntry = EnumEntry(name: string, text: string, number: int)

  /** The value text a member is printed with, given the previous number. */
  function ValueText(m: EnumMember, prev: int): string {
    match m.value
    case Some(v) => v
    case None => FormatInt(prev + 1)
  }

  /** The number a member takes. An auto value is taken directly as
      `prev + 1`; `ValueNumberReadsText` shows this is what `int(value, 0)`
      reads from the printed text. */
  function ValueNumber(m: EnumMember, prev: int): Option<int> {
    match m.value
    case Some(v) => ParseInt(v)
    case None => Some(prev + 1)
  }

  lemma ValueNumberReadsText(m: EnumMember, prev: int)
    ensures ValueNumber(m, prev) == ParseInt(ValueText(m, prev))
  {
    if m.value.None? {
      ParseFormatInt(prev + 1);
    }
  }

  /** The number before entry `k`: the caller's start for the first, else
      the number of the entry before it. */
  function Before(entries: seq<EnumEntry>, start: int, k: int): int
    requires 0 <= k <= |entries|
  {
    if k == 0 then start else entries[k - 1].number
  }

  /** A member whose explicit value `int(value, 0)` rejects. */
  predicate BadValue(m: EnumMember) {
    m.value.Some? && ParseInt(m.value.value).None?
  }

  /** The loop of `enum` over members already free of guards, numbering
      them from `prev`. `Err` is the ValueError of `int(value, 0)`. */
  function Assign(ms: seq<EnumMember>, prev: int): (r: Result<seq<EnumEntry>>)
    ensures r.Err? <==> exists k :: 0 <= k < |ms| && BadValue(ms[k])
    ensures r.Ok? ==> |r.value| == |ms|
    decreases |ms|
  {
    if |ms| == 0 then Ok([])
    else
      match ValueNumber(ms[0], prev)
      case None => Err("ValueError: invalid literal for int() with base 0: " + ValueText(ms[0], prev))
      case Some(n) =>
        match Assign(ms[1..], n)
        case Err(e) =>
          assert exists k :: 0 <= k < |ms| && BadValue(ms[k]) by {
            var k :| 0 <= k < |ms[1..]| && BadValue(ms[1..][k]);
            assert BadValue(ms[k + 1]);
          }
          Err(e)
        case Ok(rest) =>
          assert forall k :: 1 <= k < |ms| ==> !BadValue(ms[k]) by {
            forall k | 1 <= k < |ms| ensures !BadValue(ms[k]) {
              assert ms[k] == ms[1..][k - 1];
            }
          }
          Ok([EnumEntry(ms[0].name, ValueText(ms[0], prev), n)] + rest)
  }

  /** Entry `k` carries member `k`'s name, the text it is printed with,
      and the number that member takes after the entry before it. */
  lemma {:induction false} AssignEntry(ms: seq<EnumMember>, prev: int, k: int)
    requires Assign(ms, prev).Ok? && 0 <= k < |ms|
    ensures var r := Assign(ms, prev).value;
      && r[k].name == ms[k].name
      && r[k].text == ValueText(ms[k], Before(r, prev, k))
      && ValueNumber(ms[k], Before(r, prev, k)) == Some(r[k].number)
    decreases k
  {
    var n := ValueNumber(ms[0], prev).value;
    var rest := Assign(ms[1..], n).value;
    var r := Assign(ms, prev).value;
    assert r == [EnumEntry(ms[0].name, ValueText(ms[0], prev), n)] + rest;
    if k > 0 {
      AssignEntry(ms[1..], n, k - 1);
      assert ms[k] == ms[1..][k - 1];
      assert r[k] == rest[k - 1];
      assert Before(r, prev, k) == Before(rest, n, k - 1) by {
        if k > 1 {
          assert r[k - 1] == rest[k - 2];
        }
      }
    }
  }

  /** Every printed value text reads back, under `int(text, 0)`, as the
      number recorded for it; an auto-valued member is one more than the
      member emitted before it, so the first auto member from -1 is 0. */
  lemma EntryReadsBack(ms: seq<EnumMember>, prev: int, k: int)
    requires Assign(ms, prev).Ok? && 0 <= k < |ms|
    ensures var r := Assign(ms, prev).value;
      && ParseInt(r[k].text) == Some(r[k].number)
      && (ms[k].value.None? ==> r[k].number == Before(r, prev, k) + 1)
      && (ms[k].value.Some? ==> r[k].text == ms[k].value.value)
  {
    var r := Assign(ms, prev).value;
    AssignEntry(ms, prev, k);
    ValueNumberReadsText(ms[k], Before(r, prev, k));
  }

  function EntryNames(entries: seq<EnumEntry>): set<string> {
    set k | 0 <= k < |entries| :: entries[k].name
  }

  function MemberLines(enumName: string, entries: seq<EnumEntry>): (r: seq<string>)
    ensures |r| == |entries|
    ensures forall k :: 0 <= k < |r| ==> r[k] == entries[k].name + " = " + enumName + "(" + entries[k].text + ")"
  {
    seq(|entries|, k requires 0 <= k < |entries| => entries[k].name + " = " + enumName + "(" + entries[k].text + ")")
  }

  /** `enum(name, values)` */
  function Enum(ctx: GenContext, cfg: Config, name: string, members: seq<EnumMember>): (r: Result<Emission>)
    ensures Excluded(cfg, name) || name in ctx.opaques ==> r == Ok(Silent(ctx))
    ensures !Excluded(cfg, name) && name !in ctx.opaques ==>
      (r.Err? <==> exists m :: m in members && !IsGuard(m.name) && BadValue(m))
    ensures r.Ok? ==> Grows(ctx, r.value.ctx)
    ensures r.Ok? && !Excluded(cfg, name) && name !in ctx.opaques ==>
      var entries := Assign(Kept(members), -1).value;
      && r.value.lines == ["class " + name + "(Enumeration): pass"] + MemberLines(name, entries) + [""]
      && r.value.diagnostics == []
      && r.value.ctx == ctx.(defined := ctx.defined + EntryNames(entries) + {name}, enums := ctx.enums + {name})
  {
    if Excluded(cfg, name) || name in ctx.opaques then Ok(Silent(ctx))
    else
      var kept := Kept(members);
      assert (exists m :: m in members && !IsGuard(m.name) && BadValue(m))
         <==> (exists k :: 0 <= k < |kept| && BadValue(kept[k])) by {
        if m :| m in members && !IsGuard(m.name) && BadValue(m) {
          var k :| 0 <= k < |kept| && kept[k] == m;
        }
      }
      var entries :- Assign(kept, -1);
      Ok(Emission(
        ["class " + name + "(Enumeration): pass"] + MemberLines(name, entries) + [""],
        [],
        ctx.(defined := ctx.defined + EntryNames(entries) + {name}, enums := ctx.enums + {name})))
  }

  /** The names recorded are exactly the kept members' names and the
      enumeration's own: a guard is neither printed nor defined, unless a
      non-guard member or the enumeration has the same name. */
  lemma DefinesKeptNames(ctx: GenContext, cfg: Config, name: string, members: seq<EnumMember>)
    requires !Excluded(cfg, name) && name !in ctx.opaques
    requires Enum(ctx, cfg, name, members).Ok?
    ensures var c := Enum(ctx, cfg, name, members).value.ctx;
      && (forall m :: m in members && !IsGuard(m.name) ==> m.name in c.defined)
      && (forall x :: x in c.defined ==> x in ctx.defined || x == name || exists m :: m in members && !IsGuard(m.name) && m.name == x)
      && name in c.enums
  {
    var kept := Kept(members);
    var entries := Assign(kept, -1).value;
    forall m | m in members && !IsGuard(m.name) ensures m.name in EntryNames(entries) {
      var k :| 0 <= k < |kept| && kept[k] == m;
      AssignEntry(kept, -1, k);
    }
    forall x | x in EntryNames(entries) ensures exists m :: m in members && !IsGuard(m.name) && m.name == x {
      var k :| 0 <= k < |entries| && entries[k].name == x;
      AssignEntry(kept, -1, k);
      assert kept[k] in members;
    }
  }

  /** Inserting a guard member anywhere changes nothing: it does not
      advance the counter and is not printed. */
  lemma GuardIsInvisible(ctx: GenContext, cfg: Config, name: string, a: seq<EnumMember>, g: EnumMember, b: seq<EnumMember>)
    requires IsGuard(g.name)
    ensures Enum(ctx, cfg, name, a + [g] + b) == Enum(ctx, cfg, name, a + b)
  {
    KeptConcat(a + [g], b);
    KeptConcat(a, [g]);
    KeptConcat(a, b);
    assert Kept([g]) == [];
    assert Kept(a + [g]) == Kept(a);
  }

  /** `A = 2, B, C_SIZE_GUARD, D` keeps A, B and D ... */
  lemma GuardExample()
    ensures var ms := [EnumMember("A", Some("2"), ""), EnumMember("B", None, ""),
                       EnumMember("C_SIZE_GUARD", None, ""), EnumMember("D", None, "")];
      Kept(ms) == [ms[0], ms[1], ms[3]]
  {
    var ms := [EnumMember("A", Some("2"), ""), EnumMember("B", None, ""),
               EnumMember("C_SIZE_GUARD", None, ""), EnumMember("D", None, "")];
    assert !IsGuard("A") && !IsGuard("B") && !IsGuard("D");
    assert IsGuard("C_SIZE_GUARD") by {
      assert "C_SIZE_GUARD"[|"C_SIZE_GUARD"| - |"SIZE_GUARD"|..] == "SIZE_GUARD";
    }
    assert ms[1..] == [ms[1], ms[2], ms[3]];
    assert ms[1..][1..] == [ms[2], ms[3]];
    assert ms[1..][1..][1..] == [ms[3]];
  }

  lemma SmallNumerals()
    ensures ParseInt("2") == Some(2)
    ensures FormatInt(0) == "0" && FormatInt(3) == "3" && FormatInt(4) == "4"
  {
    ParseFormatInt(2);
    assert FormatInt(2) == "2";
  }

  /** A run of members without values counts up by one from `prev`. */
  function Counted(ms: seq<EnumMember>, prev: int): (r: seq<EnumEntry>)
    ensures |r| == |ms|
    ensures forall k :: 0 <= k < |ms| ==> r[k] == EnumEntry(ms[k].name, FormatInt(prev + 1 + k), prev + 1 + k)
  {
    seq(|ms|, k requires 0 <= k < |ms| => EnumEntry(ms[k].name, FormatInt(prev + 1 + k), prev + 1 + k))
  }

  /** Members without values are numbered consecutively after `prev`. */
  lemma {:induction false} AutoValuesCount(ms: seq<EnumMember>, prev: int)
    requires forall k :: 0 <= k < |ms| ==> ms[k].value.None?
    ensures Assign(ms, prev) == Ok(Counted(ms, prev))
    decreases |ms|
  {
    if |ms| > 0 {
      assert forall k :: 0 <= k < |ms[1..]| ==> ms[1..][k].value.None? by {
        forall k | 0 <= k < |ms[1..]| ensures ms[1..][k].value.None? {
          assert ms[1..][k] == ms[k + 1];
        }
      }
      AutoValuesCount(ms[1..], prev + 1);
      CountedCons(ms, prev);
    }
  }

  lemma CountedCons(ms: seq<EnumMember>, prev: int)
    requires |ms| > 0
    ensures Counted(ms, prev) == [EnumEntry(ms[0].name, FormatInt(prev + 1), prev + 1)] + Counted(ms[1..], prev + 1)
  {
    var a := Counted(ms, prev);
    var b := [EnumEntry(ms[0].name, FormatInt(prev + 1), prev + 1)] + Counted(ms[1..], prev + 1);
    assert |a| == |b|;
    forall k | 1 <= k < |ms| ensures a[k] == b[k] {
      var j := k - 1;
      assert ms[1..][j] == ms[k];
      assert b[k] == Counted(ms[1..], prev + 1)[j];
      assert prev + 1 + 1 + j == prev + 1 + k;
    }
  }

  /** ... and numbers them 2, 3 and 4. */
  lemma NumberingExample()
    ensures Assign([EnumMember("A", Some("2"), ""), EnumMember("B", None, ""), EnumMember("D", None, "")], -1)
      == Ok([EnumEntry("A", "2", 2), EnumEntry("B", "3", 3), EnumEntry("D", "4", 4)])
  {
    var ms := [EnumMember("A", Some("2"), ""), EnumMember("B", None, ""), EnumMember("D", None, "")];
    var head := EnumEntry("A", "2", 2);
    var tail := [EnumEntry("B", "3", 3), EnumEntry("D", "4", 4)];
    SmallNumerals();
    AutoValuesCount(ms[1..], 2);
    assert Counted(ms[1..], 2) == tail;
    AssignCons(ms, -1, 2);
    assert [head] + tail == [EnumEntry("A", "2", 2), EnumEntry("B", "3", 3), EnumEntry("D", "4", 4)];
  }

  /** The first member's entry, followed by those of the rest. */
  lemma AssignCons(ms: seq<EnumMember>, prev: int, n: int)
    requires |ms| > 0 && ValueNumber(ms[0], prev) == Some(n) && Assign(ms[1..], n).Ok?
    ensures Assign(ms, prev) == Ok([EnumEntry(ms[0].name, ValueText(ms[0], prev), n)] + Assign(ms[1..], n).value)
  {
  }

  /** The first member of an enumeration, given no value, is 0. */
  lemma FirstAutoIsZero(m: EnumMember)
    requires m.value.None?
    ensures Assign([m], -1) == Ok([EnumEntry(m.name, "0", 0)])
  {
    assert !BadValue([m][0]);
    var r := Assign([m], -1).value;
    AssignEntry([m], -1, 0);
    SmallNumerals();
    assert r == [EnumEntry(m.name, "0", 0)];
  }
}

=== FILE: funcplan.dfy ===
/** The decisions `function` takes before it prints anything: the return
    kind, the size and output parameters, the `custom` flag, and the
    arguments of the binding record (gen_wrap.py:193-278). */
module Inference {
  import opened Results
  import opened Text
  import opened TypeMapper
  import opened Context
  import opened HintLists
  import opened Declarations

  /** The four binding constructors of the runtime prefix. */
  datatype FuncType = STDFUNC | STDPTRFUNC | DXFUNC | RETFUNC

  function FuncTypeName(f: FuncType): string {
    match f
    case STDFUNC => "STDFUNC"
    case STDPTRFUNC => "STDPTRFUNC"
    case DXFUNC => "DXFUNC"
    case RETFUNC => "RETFUNC"
  }

  /** The constructors that fix the return type to a status code. */
  predicate IsStatus(f: FuncType) {
    f == STDFUNC || f == DXFUNC
  }

  /** The text `function` looks for in a mapped return type to tell a
      pointer: the name of the ctypes pointer constructor. */
  const PointerName: string := "ctypes.POINTER"[7..]

  /** The return kind, the mapped return type passed to the constructor
      (absent for the status kinds), and `retpointer`. */
  datatype ReturnPlan = ReturnPlan(functype: FuncType, restypeArg: Option<string>, retpointer: bool)

  /** gen_wrap.py:207-221. `Err` is the IndexError of `restype[-1]` on an
      empty return type, or the mapper's. */
  function PlanReturn(ctx: GenContext, h: Hints, restype: string): (r: Result<ReturnPlan>)
    ensures restype == "int" ==> r == Ok(ReturnPlan(STDFUNC, None, h.rvdisposed))
    ensures restype == "IMAQdxError" ==> r == Ok(ReturnPlan(DXFUNC, None, h.rvdisposed))
    ensures restype != "int" && restype != "IMAQdxError" ==>
      && (r.Ok? <==> restype != "" && MapType(ctx, restype, None).Ok?)
      && (r.Ok? ==>
           && r.value.functype == (if LastIs(restype, '*') then STDPTRFUNC else RETFUNC)
           && r.value.restypeArg == Some(MapType(ctx, restype, None).value)
           && (r.value.retpointer <==> h.rvdisposed || Contains(MapType(ctx, restype, None).value, PointerName)))
  {
    if restype == "int" then Ok(ReturnPlan(STDFUNC, None, h.rvdisposed))
    else if restype == "IMAQdxError" then Ok(ReturnPlan(DXFUNC, None, h.rvdisposed))
    else if |restype| == 0 then Err("IndexError: string index out of range")
    else
      var functype := if restype[|restype| - 1] == '*' then STDPTRFUNC else RETFUNC;
      var ctype :- MapType(ctx, restype, None);
      Ok(ReturnPlan(functype, Some(ctype), h.rvdisposed || Contains(ctype, PointerName)))
  }

  /** A function returning a pointer to an opaque structure returns the
      handle itself, so the return is not treated as a disposable pointer
      unless the configuration says so. */
  lemma OpaqueReturnIsNotPointer(ctx: GenContext, h: Hints, x: string)
    requires x in ctx.opaques && |x| > 0 && !LastIs(x, '*') && !StartsWith(x, "const")
    requires x + "*" !in CtypesMap && !Contains(x, PointerName) && !h.rvdisposed
    ensures PlanReturn(ctx, h, x + "*") == Ok(ReturnPlan(STDPTRFUNC, Some(x), false))
  {
    OpaquePointerCollapses(CtypesMap, ctx.opaques, x, None);
    assert x + "*" != "int" && x + "*" != "IMAQdxError" by {
      assert LastIs(x + "*", '*');
    }
    assert x + "" == x;
  }

  /** The size hints: `arraysize` pairs a sized parameter with the
      parameter holding its length; `retarraysize` names the parameter
      that receives the length of a returned array. */
  datatype SizeHints = SizeHints(sized: Assoc, retarraysize: string, sizeParams: set<string>)

  /** gen_wrap.py:224-229 */
  function SizeHintsOf(h: Hints): (r: Result<SizeHints>)
    ensures r.Ok? <==> ParsePairs(h.arraysize).Ok?
    ensures r.Ok? ==> r.value.sized == ParsePairs(h.arraysize).value && r.value.retarraysize == Strip(h.retarraysize)
    ensures r.Ok? ==> forall x :: x in r.value.sizeParams <==>
      (x in Values(r.value.sized) || (x == r.value.retarraysize && x != ""))
  {
    var sized :- ParsePairs(h.arraysize);
    var ret := Strip(h.retarraysize);
    Ok(SizeHints(sized, ret, Values(sized) + (if ret != "" then {ret} else {})))
  }

  /** What output inference reads: the return kind, `underscored`, and the
      `outparams` and `inparams` name sets. */
  datatype Inference = Inference(functype: FuncType, underscored: bool, configOut: set<string>, inparams: set<string>)

  /** gen_wrap.py:257-261: listed as an output, or an unlisted, non-const
      pointer to something other than a forward-declared structure in a
      function that is not underscored. */
  predicate IsOutput(ctx: GenContext, inf: Inference, p: Param) {
    || p.name in inf.configOut
    || (&& p.name !in inf.inparams
        && !inf.underscored
        && !StartsWith(p.ctype, "const")
        && DropLast(p.ctype) !in ctx.forward
        && LastIs(p.ctype, '*'))
  }

  /** gen_wrap.py:262: an output the binding constructors cannot return
      by themselves. */
  predicate ForcesCustom(ctx: GenContext, inf: Inference, p: Param) {
    !IsStatus(inf.functype) || DropLast(p.ctype) in ctx.enums
  }

  /** The output names of `ps`, in parameter order. */
  function Outputs(ctx: GenContext, inf: Inference, ps: seq<Param>): (r: seq<string>)
    ensures forall x :: x in r <==> exists k :: 0 <= k < |ps| && ps[k].name == x && IsOutput(ctx, inf, ps[k])
    decreases |ps|
  {
    if |ps| == 0 then []
    else
      var rest := Outputs(ctx, inf, ps[1..]);
      assert forall k :: 1 <= k < |ps| ==> ps[k] == ps[1..][k - 1];
      assert forall x :: x in rest ==> exists k :: 0 <= k < |ps| && ps[k].name == x && IsOutput(ctx, inf, ps[k]) by {
        forall x | x in rest ensures exists k :: 0 <= k < |ps| && ps[k].name == x && IsOutput(ctx, inf, ps[k]) {
          var j :| 0 <= j < |ps[1..]| && ps[1..][j].name == x && IsOutput(ctx, inf, ps[1..][j]);
          assert ps[j + 1] == ps[1..][j];
        }
      }
      if IsOutput(ctx, inf, ps[0]) then [ps[0].name] + rest else rest
  }

  /** Outputs keep parameter order: those of a concatenation are those of
      its parts, in turn. */
  lemma {:induction false} OutputsConcat(ctx: GenContext, inf: Inference, a: seq<Param>, b: seq<Param>)
    ensures Outputs(ctx, inf, a + b) == Outputs(ctx, inf, a) + Outputs(ctx, inf, b)
    decreases |a|
  {
    if |a| == 0 {
      assert a + b == b;
    } else {
      assert (a + b)[1..] == a[1..] + b;
      OutputsConcat(ctx, inf, a[1..], b);
    }
  }

  /** The text of one parameter record of the binding. */
  function ParamArg(name: string, ctype: string, default: Option<string>): string {
    match default
    case Some(d) => "(\"" + name + "\", " + ctype + ", " + d + ")"
    case None => "(\"" + name + "\", " + ctype + ")"
  }

  /** The parameter records of the binding, one per non-`void` parameter,
      each with its default when `defaults` names one. `Err` is the first
      parameter whose type cannot be mapped. */
  function ParamArgs(ctx: GenContext, defaults: Assoc, ps: seq<Param>): (r: Result<seq<string>>)
    ensures r.Ok? <==> forall k :: 0 <= k < |ps| ==> MapType(ctx, ps[k].ctype, ps[k].arr).Ok?
    ensures r.Ok? ==> |r.value| == |ps|
    ensures r.Ok? ==> forall k :: 0 <= k < |ps| ==>
      r.value[k] == ParamArg(ps[k].name, MapType(ctx, ps[k].ctype, ps[k].arr).value, Get(defaults, ps[k].name))
    decreases |ps|
  {
    if |ps| == 0 then Ok([])
    else
      match MapType(ctx, ps[0].ctype, ps[0].arr)
      case Err(e) => Err(e)
      case Ok(ctype) =>
        var rest := ParamArgs(ctx, defaults, ps[1..]);
        assert forall k :: 1 <= k < |ps| ==> ps[k] == ps[1..][k - 1];
        match rest
        case Err(e) => Err(e)
        case Ok(args) => Ok([ParamArg(ps[0].name, ctype, Get(defaults, ps[0].name))] + args)
  }

  /** `paramtypes`: each parameter name with its declared type and array
      suffix; a repeated name keeps its last declaration. */
  function ParamTypes(ps: seq<Param>): map<string, (string, Option<string>)>
    decreases |ps|
  {
    if |ps| == 0 then map[]
    else
      var last := ps[|ps| - 1];
      ParamTypes(ps[..|ps| - 1])[last.name := (last.ctype, last.arr)]
  }

  /** The names `paramtypes` records are exactly the parameter names. */
  lemma {:induction false} ParamTypesDomain(ps: seq<Param>)
    ensures forall x :: x in ParamTypes(ps) <==> exists k :: 0 <= k < |ps| && ps[k].name == x
    decreases |ps|
  {
    if |ps| > 0 {
      var init := ps[..|ps| - 1];
      ParamTypesDomain(init);
      var last := ps[|ps| - 1];
      assert ParamTypes(ps) == ParamTypes(init)[last.name := (last.ctype, last.arr)];
      forall x | x in ParamTypes(ps) ensures exists k :: 0 <= k < |ps| && ps[k].name == x {
        if x != ps[|ps| - 1].name {
          var j :| 0 <= j < |init| && init[j].name == x;
          assert ps[j].name == x;
        }
      }
      forall x | (exists k :: 0 <= k < |ps| && ps[k].name == x) ensures x in ParamTypes(ps) {
        var k :| 0 <= k < |ps| && ps[k].name == x;
        if k < |ps| - 1 {
          assert init[k].name == x;
        }
      }
    }
  }

  /** A parameter declared last under its name is the one recorded. */
  lemma {:induction false} ParamTypesLast(ps: seq<Param>, k: int)
    requires 0 <= k < |ps|
    requires forall j :: k < j < |ps| ==> ps[j].name != ps[k].name
    ensures ps[k].name in ParamTypes(ps)
    ensures ParamTypes(ps)[ps[k].name] == (ps[k].ctype, ps[k].arr)
    decreases |ps|
  {
    if k < |ps| - 1 {
      var init := ps[..|ps| - 1];
      assert init[k] == ps[k];
      forall j | k < j < |init| ensures init[j].name != init[k].name {
        assert init[j] == ps[j];
      }
      ParamTypesLast(init, k);
    }
  }

  /** Whether some inferred output forces a wrapper. */
  predicate ForcesAny(ctx: GenContext, inf: Inference, ps: seq<Param>) {
    exists k :: 0 <= k < |ps| && IsOutput(ctx, inf, ps[k]) && ForcesCustom(ctx, inf, ps[k])
  }

  /** What the parameter loop (gen_wrap.py:243-264) accumulates. */
  datatype Scan = Scan(
    args: seq<string>,                            // parameter records, in order
    types: map<string, (string, Option<string>)>, // `paramtypes`
    outs: seq<string>,                            // `outparams`
    forces: bool)                                 // some output set `custom`

  /** The parameter loop over the non-`void` parameters. */
  function ScanParams(ctx: GenContext, inf: Inference, defaults: Assoc, ps: seq<Param>): (r: Result<Scan>)
    ensures r.Ok? <==> forall k :: 0 <= k < |ps| ==> MapType(ctx, ps[k].ctype, ps[k].arr).Ok?
    ensures r.Ok? ==> r.value.args == ParamArgs(ctx, defaults, ps).value
    ensures r.Ok? ==> r.value.types == ParamTypes(ps)
    ensures r.Ok? ==> r.value.outs == Outputs(ctx, inf, ps)
    ensures r.Ok? ==> (r.value.forces <==> ForcesAny(ctx, inf, ps))
  {
    var args :- ParamArgs(ctx, defaults, ps);
    Ok(Scan(args, ParamTypes(ps), Outputs(ctx, inf, ps), ForcesAny(ctx, inf, ps)))
  }

  /** Every inferred output is a parameter the loop recorded a type for. */
  lemma OutputsAreTyped(ctx: GenContext, inf: Inference, ps: seq<Param>)
    ensures forall x :: x in Outputs(ctx, inf, ps) ==> x in ParamTypes(ps)
  {
    ParamTypesDomain(ps);
  }

  /** gen_wrap.py:230-233, 262-263: a wrapper is needed for size
      parameters, for a pointer return, or for an output the binding
      cannot return. */
  predicate IsCustom(sizes: SizeHints, ret: ReturnPlan, scan: Scan) {
    sizes.sizeParams != {} || ret.retpointer || scan.forces
  }

  function Quote(x: string): string {
    "\"" + x + "\""
  }

  function QuoteAll(xs: seq<string>): (r: seq<string>)
    ensures |r| == |xs| && forall k :: 0 <= k < |xs| ==> r[k] == Quote(xs[k])
  {
    seq(|xs|, k requires 0 <= k < |xs| => Quote(xs[k]))
  }

  /** The `out=[...]` argument: present iff the binding itself returns the
      outputs, that is the function is not custom and has outputs. */
  function OutArg(custom: bool, outs: seq<string>): (r: seq<string>)
    ensures |r| <= 1
    ensures r != [] <==> !custom && outs != []
    ensures r != [] ==> r[0] == "out=[" + Join(", ", QuoteAll(outs)) + "]"
  {
    if !custom && outs != [] then ["out=[" + Join(", ", QuoteAll(outs)) + "]"] else []
  }

  /** gen_wrap.py:269-274: the library argument, omitted for the default
      `_dll` and when `_platform_` has no `library`. */
  function LibraryArg(library: Option<string>): (r: seq<string>)
    ensures |r| <= 1
    ensures r != [] <==> library.Some? && library.value != "_dll"
    ensures r != [] ==> r[0] == "library=" + library.value
  {
    match library
    case Some(l) => if l != "_dll" then ["library=" + l] else []
    case None => []
  }

  function OptionSeq(o: Option<string>): (r: seq<string>)
    ensures o.None? <==> r == []
    ensures o.Some? ==> r == [o.value]
  {
    match o
    case Some(x) => [x]
    case None => []
  }

  /** gen_wrap.py:276-278: the binding record, private (`_`-prefixed)
      iff the function is underscored or custom. */
  function BindingLine(name: string, private: bool, ret: ReturnPlan, args: seq<string>): string
  {
    (if private then "_" else "") + name + " = " + FuncTypeName(ret.functype) + "(" + Join(", ", args) + ")"
  }

  /** The arguments of the binding constructor, in the source's order. */
  function BindingArgs(name: string, ret: ReturnPlan, scan: Scan, custom: bool, library: Option<string>): seq<string>
  {
    [Quote(name)] + OptionSeq(ret.restypeArg) + scan.args + OutArg(custom, scan.outs) + LibraryArg(library)
  }
}

=== FILE: functions.dfy ===
/** `function(name, restype, params)` (gen_wrap.py:193-358): the binding
    record, and the wrapper behind it when one is needed. */
module Functions {
  import opened Results
  import opened Text
  import opened Context
  import opened HintLists
  import opened Declarations
  import opened Inference
  import opened Wrappers

  /** `defaults` and `inparams` are read only when the function declares
      parameters at all. */
  function DefaultsFor(h: Hints, params: seq<Param>): (r: Result<Assoc>)
    ensures params == [] ==> r == Ok([])
    ensures params != [] ==> r == ParsePairs(h.defaults)
  {
    if params == [] then Ok([]) else ParsePairs(h.defaults)
  }

  function InferenceFor(h: Hints, functype: FuncType, params: seq<Param>): Inference {
    Inference(functype, h.underscored, NameSet(h.outparams), if params == [] then {} else NameSet(h.inparams))
  }

  /** Everything `function` decides before it prints. */
  datatype Plan = Plan(ret: ReturnPlan, sizes: SizeHints, inf: Inference, scan: Scan, custom: bool)

  function PlanFor(ctx: GenContext, h: Hints, restype: string, params: seq<Param>): (r: Result<Plan>)
    ensures r.Ok? <==>
      && PlanReturn(ctx, h, restype).Ok?
      && SizeHintsOf(h).Ok?
      && DefaultsFor(h, params).Ok?
      && ScanParams(ctx, InferenceFor(h, PlanReturn(ctx, h, restype).value.functype, params),
                    DefaultsFor(h, params).value, NonVoid(params)).Ok?
    ensures r.Ok? ==>
      && r.value.ret == PlanReturn(ctx, h, restype).value
      && r.value.sizes == SizeHintsOf(h).value
      && r.value.inf == InferenceFor(h, r.value.ret.functype, params)
      && r.value.scan == ScanParams(ctx, r.value.inf, DefaultsFor(h, params).value, NonVoid(params)).value
    ensures r.Ok? ==> (r.value.custom <==>
      || r.value.sizes.sizeParams != {}
      || r.value.ret.retpointer
      || ForcesAny(ctx, r.value.inf, NonVoid(params)))
  {
    var ret :- PlanReturn(ctx, h, restype);
    var sizes :- SizeHintsOf(h);
    var defaults :- DefaultsFor(h, params);
    var inf := InferenceFor(h, ret.functype, params);
    var scan :- ScanParams(ctx, inf, defaults, NonVoid(params));
    Ok(Plan(ret, sizes, inf, scan, IsCustom(sizes, ret, scan)))
  }

  /** Whether a wrapper follows the binding. */
  predicate HasWrapper(h: Hints, plan: Plan) {
    plan.custom && !h.underscored
  }

  /** The lines of a planned function: the binding record, then the
      wrapper when there is one. */
  function Lines(ctx: GenContext, h: Hints, library: Option<string>, name: string, params: seq<Param>, plan: Plan): (r: Result<seq<string>>)
    ensures r.Ok? <==> (HasWrapper(h, plan) ==> Wrapper(ctx, name, plan.ret, params, plan.scan, plan.sizes).Ok?)
    ensures r.Ok? ==> |r.value| >= 1
    ensures r.Ok? ==> r.value[0] == BindingLine(name, h.underscored || plan.custom, plan.ret,
      BindingArgs(name, plan.ret, plan.scan, plan.custom, library))
    ensures r.Ok? ==> (|r.value| > 1 <==> HasWrapper(h, plan))
    ensures r.Ok? && HasWrapper(h, plan) ==>
      r.value[1..] == Wrapper(ctx, name, plan.ret, params, plan.scan, plan.sizes).value
  {
    var binding := BindingLine(name, h.underscored || plan.custom, plan.ret,
      BindingArgs(name, plan.ret, plan.scan, plan.custom, library));
    if HasWrapper(h, plan) then
      var wrapper :- Wrapper(ctx, name, plan.ret, params, plan.scan, plan.sizes);
      assert ([binding] + wrapper)[1..] == wrapper;
      Ok([binding] + wrapper)
    else Ok([binding])
  }

  function Function(ctx: GenContext, cfg: Config, name: string, restype: string, params: seq<Param>): (r: Result<Emission>)
    ensures Excluded(cfg, name) || name in ctx.opaques ==> r == Ok(Silent(ctx))
    ensures !Excluded(cfg, name) && name !in ctx.opaques ==>
      var h := HintsFor(cfg, name);
      var plan := PlanFor(ctx, h, restype, params);
      && (r.Ok? <==> plan.Ok? && Lines(ctx, h, cfg.library, name, params, plan.value).Ok?)
      && (r.Ok? ==> r.value == Emission(Lines(ctx, h, cfg.library, name, params, plan.value).value, [],
                                         ctx.(defined := ctx.defined + {name})))
    ensures r.Ok? ==> Grows(ctx, r.value.ctx)
  {
    if Excluded(cfg, name) || name in ctx.opaques then Ok(Silent(ctx))
    else
      var h := HintsFor(cfg, name);
      var plan :- PlanFor(ctx, h, restype, params);
      var lines :- Lines(ctx, h, cfg.library, name, params, plan);
      Ok(Emission(lines, [], ctx.(defined := ctx.defined + {name})))
  }

  /** In `s`, every character up to position `n` equals the one before it
      when `s` starts with `"_" + s[..n]`. */
  lemma {:induction false} ShiftedPrefixConstant(s: string, name: string, i: nat)
    requires |name| + 1 <= |s| && s[..|name|] == name && s[..|name| + 1] == "_" + name
    requires i <= |name|
    ensures s[i] == '_'
    decreases i
  {
    if i > 0 {
      ShiftedPrefixConstant(s, name, i - 1);
      assert s[i] == ("_" + name)[i] == name[i - 1] == s[i - 1];
    } else {
      assert s[0] == ("_" + name)[0];
    }
  }

  /** A line of the form `name = ...` never also reads `_name = ...`. */
  lemma NotPrefixedTwice(name: string, rest: string)
    ensures !StartsWith(name + " = " + rest, "_" + name + " = ")
  {
    var s := name + " = " + rest;
    if StartsWith(s, "_" + name + " = ") {
      assert s[..|name|] == name;
      assert s[..|name| + 1] == ("_" + name + " = ")[..|name| + 1] == "_" + name;
      ShiftedPrefixConstant(s, name, |name|);
    }
  }

  /** The binding is private (`_name = ...`) exactly when it is asked to
      be: for an underscored function or one that needs a wrapper. */
  lemma BindingPrivateIff(name: string, private: bool, ret: ReturnPlan, args: seq<string>)
    ensures StartsWith(BindingLine(name, private, ret, args), "_" + name + " = ") <==> private
  {
    var line := BindingLine(name, private, ret, args);
    var rest := FuncTypeName(ret.functype) + "(" + Join(", ", args) + ")";
    if private {
      assert line == "_" + name + " = " + rest;
      assert line[..|"_" + name + " = "|] == "_" + name + " = ";
    } else {
      assert line == name + " = " + rest;
      NotPrefixedTwice(name, rest);
    }
  }

  /** With no size hints there are no size parameters. */
  lemma NoSizeHints(h: Hints)
    requires h.arraysize == "" && h.retarraysize == ""
    ensures SizeHintsOf(h) == Ok(SizeHints([], "", {}))
  {
    assert SplitOn("", ',') == [""];
    assert PairsOf([""]) == Ok([]) by {
      assert [""][1..] == [];
    }
    assert Dict([]) == [];
    assert SizeHintsOf(h).value.sizeParams == {};
  }

  /** A status function without size hints, without `rvdisposed` and with
      no output pointing to an enumeration needs no wrapper: the binding
      returns its outputs itself. */
  lemma StatusFunctionNeedsNoWrapper(ctx: GenContext, h: Hints, restype: string, params: seq<Param>)
    requires restype == "int" || restype == "IMAQdxError"
    requires h.arraysize == "" && h.retarraysize == "" && !h.rvdisposed
    requires PlanFor(ctx, h, restype, params).Ok?
    requires forall k :: 0 <= k < |NonVoid(params)| ==>
      IsOutput(ctx, PlanFor(ctx, h, restype, params).value.inf, NonVoid(params)[k]) ==>
      DropLast(NonVoid(params)[k].ctype) !in ctx.enums
    ensures !PlanFor(ctx, h, restype, params).value.custom
  {
    NoSizeHints(h);
  }

  /** A plan for a non-status return reads outputs with a non-status kind. */
  lemma NonStatusPlan(ctx: GenContext, h: Hints, restype: string, params: seq<Param>, plan: Plan)
    requires restype != "int" && restype != "IMAQdxError"
    requires PlanFor(ctx, h, restype, params) == Ok(plan)
    ensures !IsStatus(plan.inf.functype)
  {
    var ret := PlanReturn(ctx, h, restype).value;
    assert plan.inf == InferenceFor(h, ret.functype, params);
  }

  /** A plan in which some output forces a wrapper is custom. */
  lemma ForcedPlanIsCustom(ctx: GenContext, h: Hints, restype: string, params: seq<Param>, plan: Plan)
    requires PlanFor(ctx, h, restype, params) == Ok(plan)
    requires ForcesAny(ctx, plan.inf, NonVoid(params))
    ensures plan.custom
  {
  }

  /** A function returning anything but a status code needs a wrapper as
      soon as it has an inferred output: only the wrapper can return the
      output alongside the result. */
  lemma ResultWithOutputIsCustom(ctx: GenContext, h: Hints, restype: string, params: seq<Param>, plan: Plan, k: int)
    requires restype != "int" && restype != "IMAQdxError"
    requires PlanFor(ctx, h, restype, params) == Ok(plan)
    requires 0 <= k < |NonVoid(params)|
    requires IsOutput(ctx, plan.inf, NonVoid(params)[k])
    ensures plan.custom
  {
    var ps := NonVoid(params);
    NonStatusPlan(ctx, h, restype, params, plan);
    assert ForcesCustom(ctx, plan.inf, ps[k]);
    ForcedPlanIsCustom(ctx, h, restype, params, plan);
  }
}

=== FILE: hints.dfy ===
/** The comma-separated hint values a function's configuration section
    carries, read the way `function` reads them (gen_wrap.py:224-242). */
module HintLists {
  import opened Results
  import opened Text

  /** The set of comma-separated names, each stripped of surrounding
      whitespace; an empty option gives the set holding the empty name. */
  function NameSet(raw: string): set<string> {
    var pieces := SplitOn(raw, ',');
    set k | 0 <= k < |pieces| :: Strip(pieces[k])
  }

  /** A Python dict with string keys and values, in insertion order. */
  type Assoc = seq<(string, string)>

  function Keys(a: Assoc): set<string> {
    set i | 0 <= i < |a| :: a[i].0
  }

  predicate DistinctKeys(a: Assoc) {
    forall i, j :: 0 <= i < j < |a| ==> a[i].0 != a[j].0
  }

  /** `a.get(key)` */
  function Get(a: Assoc, key: string): (r: Option<string>)
    ensures r.None? <==> key !in Keys(a)
    ensures r.Some? ==> (key, r.value) in a
    decreases |a|
  {
    if |a| == 0 then None
    else if a[0].0 == key then Some(a[0].1)
    else
      var r := Get(a[1..], key);
      assert Keys(a) == {a[0].0} + Keys(a[1..]) by {
        forall x | x in Keys(a) ensures x in {a[0].0} + Keys(a[1..]) {
          var i :| 0 <= i < |a| && a[i].0 == x;
          if i > 0 {
            assert a[1..][i - 1].0 == x;
          }
        }
        forall x | x in Keys(a[1..]) ensures x in Keys(a) {
          var i :| 0 <= i < |a[1..]| && a[1..][i].0 == x;
          assert a[i + 1].0 == x;
        }
      }
      r
  }

  /** With distinct keys, every entry is the one `Get` finds for its key. */
  lemma {:induction false} GetDistinct(a: Assoc, i: int)
    requires DistinctKeys(a) && 0 <= i < |a|
    ensures Get(a, a[i].0) == Some(a[i].1)
    decreases |a|
  {
    if i > 0 {
      assert a[0].0 != a[i].0;
      GetDistinct(a[1..], i - 1);
    }
  }

  /** What `a[key] = value` promises of its result `r`. */
  ghost predicate PutsKey(a: Assoc, key: string, value: string, r: Assoc) {
    && DistinctKeys(r)
    && Keys(r) == Keys(a) + {key}
    && Get(r, key) == Some(value)
    && (forall k :: k != key ==> Get(r, k) == Get(a, k))
  }

  /** With distinct keys, the other keys read the same after entry `i`
      is replaced by one with the same key. */
  lemma {:induction false} ReplaceKeepsOthers(a: Assoc, i: int, value: string)
    requires DistinctKeys(a) && 0 <= i < |a|
    ensures PutsKey(a, a[i].0, value, a[i := (a[i].0, value)])
  {
    var key := a[i].0;
    var r := a[i := (key, value)];
    assert Keys(r) == Keys(a) by {
      forall x | x in Keys(a) ensures x in Keys(r) {
        var j :| 0 <= j < |a| && a[j].0 == x;
        assert r[j].0 == x;
      }
    }
    GetDistinct(r, i);
    forall k | k != key ensures Get(r, k) == Get(a, k) {
      if k in Keys(a) {
        var j :| 0 <= j < |a| && a[j].0 == k;
        GetDistinct(a, j);
        GetDistinct(r, j);
      }
    }
  }

  /** Appending an entry with a new key leaves the other keys alone. */
  lemma {:induction false} AppendKeepsOthers(a: Assoc, key: string, value: string)
    requires DistinctKeys(a) && key !in Keys(a)
    ensures PutsKey(a, key, value, a + [(key, value)])
  {
    var r := a + [(key, value)];
    forall i, j | 0 <= i < j < |r| ensures r[i].0 != r[j].0 {
      if j == |a| {
        assert a[i].0 in Keys(a);
      }
    }
    assert Keys(r) == Keys(a) + {key} by {
      forall x | x in Keys(r) ensures x in Keys(a) + {key} {
        var j :| 0 <= j < |r| && r[j].0 == x;
        if j < |a| {
          assert a[j].0 == x;
        }
      }
      forall x | x in Keys(a) ensures x in Keys(r) {
        var j :| 0 <= j < |a| && a[j].0 == x;
        assert r[j].0 == x;
      }
      assert r[|a|].0 == key;
    }
    GetDistinct(r, |a|);
    forall k | k != key ensures Get(r, k) == Get(a, k) {
      if k in Keys(a) {
        var j :| 0 <= j < |a| && a[j].0 == k;
        GetDistinct(a, j);
        GetDistinct(r, j);
      }
    }
  }

  /** `a[key] = value`: an existing key keeps its place and takes the new
      value, a new key goes at the end. */
  function Put(a: Assoc, key: string, value: string): (r: Assoc)
    requires DistinctKeys(a)
    ensures PutsKey(a, key, value, r)
    ensures key !in Keys(a) ==> r == a + [(key, value)]
    ensures key in Keys(a) ==> |r| == |a|
    ensures key in Keys(a) ==>
      forall i :: 0 <= i < |a| ==> r[i] == (if a[i].0 == key then (key, value) else a[i])
  {
    if key in Keys(a) then
      var i :| 0 <= i < |a| && a[i].0 == key;
      ReplaceKeepsOthers(a, i, value);
      a[i := (key, value)]
    else
      AppendKeepsOthers(a, key, value);
      a + [(key, value)]
  }

  /** Each key of `pairs` whose later pairs all have other keys. */
  ghost predicate LastWins(pairs: seq<(string, string)>, d: Assoc) {
    forall i :: 0 <= i < |pairs| && (forall j :: i < j < |pairs| ==> pairs[j].0 != pairs[i].0)
      ==> Get(d, pairs[i].0) == Some(pairs[i].1)
  }

  /** The keys of some pairs are those of all but the last, and the last's. */
  lemma KeysSnoc(pairs: seq<(string, string)>)
    requires |pairs| > 0
    ensures Keys(pairs) == Keys(pairs[..|pairs| - 1]) + {pairs[|pairs| - 1].0}
  {
    var init := pairs[..|pairs| - 1];
    forall x | x in Keys(pairs) ensures x in Keys(init) + {pairs[|pairs| - 1].0} {
      var j :| 0 <= j < |pairs| && pairs[j].0 == x;
      if j < |init| {
        assert init[j].0 == x;
      }
    }
    forall x | x in Keys(init) ensures x in Keys(pairs) {
      var j :| 0 <= j < |init| && init[j].0 == x;
      assert pairs[j].0 == x;
    }
  }

  /** One step of `dict`: the last pair stored over the dict of the others. */
  lemma DictStep(pairs: seq<(string, string)>, d: Assoc, r: Assoc)
    requires |pairs| > 0
    requires LastWins(pairs[..|pairs| - 1], d)
    requires PutsKey(d, pairs[|pairs| - 1].0, pairs[|pairs| - 1].1, r)
    ensures LastWins(pairs, r)
  {
    var init := pairs[..|pairs| - 1];
    var last := pairs[|pairs| - 1];
    forall i | 0 <= i < |pairs| && (forall j :: i < j < |pairs| ==> pairs[j].0 != pairs[i].0)
      ensures Get(r, pairs[i].0) == Some(pairs[i].1)
    {
      if i < |pairs| - 1 {
        var key := pairs[i].0;
        assert init[i] == pairs[i];
        forall j | i < j < |init| ensures init[j].0 != init[i].0 {
          assert init[j] == pairs[j];
        }
        assert Get(d, key) == Some(pairs[i].1);
        assert last.0 != key;
        assert Get(r, key) == Get(d, key);
      }
    }
  }

  /** The keys of `d` come in the order in which they first occur in
      `pairs`: every pair with a later key of `d` is preceded by a pair
      with the earlier one. */
  ghost predicate FirstOccurrenceOrder(pairs: seq<(string, string)>, d: Assoc) {
    forall i, j, q :: 0 <= i < j < |d| && 0 <= q < |pairs| && pairs[q].0 == d[j].0
      ==> d[i].0 in Keys(pairs[..q])
  }

  /** The keys of a prefix are among those of a longer prefix. */
  lemma PrefixKeys(pairs: seq<(string, string)>, p: int, q: int)
    requires 0 <= p <= q <= |pairs|
    ensures Keys(pairs[..p]) <= Keys(pairs[..q])
  {
    forall x | x in Keys(pairs[..p]) ensures x in Keys(pairs[..q]) {
      var j :| 0 <= j < p && pairs[..p][j].0 == x;
      assert pairs[..q][j].0 == x;
    }
  }

  /** The order step of `dict`: storing the last pair over the dict of the
      others keeps the keys in first-occurrence order. */
  lemma DictOrderStep(pairs: seq<(string, string)>, d: Assoc)
    requires |pairs| > 0
    requires DistinctKeys(d)
    requires Keys(d) == Keys(pairs[..|pairs| - 1])
    requires FirstOccurrenceOrder(pairs[..|pairs| - 1], d)
    ensures FirstOccurrenceOrder(pairs, Put(d, pairs[|pairs| - 1].0, pairs[|pairs| - 1].1))
  {
    var n := |pairs| - 1;
    var init := pairs[..n];
    var last := pairs[n];
    var r := Put(d, last.0, last.1);
    forall i, j, q | 0 <= i < j < |r| && 0 <= q < |pairs| && pairs[q].0 == r[j].0
      ensures r[i].0 in Keys(pairs[..q])
    {
      if j < |d| {
        assert r[i].0 == d[i].0 && r[j].0 == d[j].0;
        var q' := q;
        if q == n {
          assert d[j].0 in Keys(init);
          var k :| 0 <= k < |init| && init[k].0 == d[j].0;
          q' := k;
        }
        assert init[q'] == pairs[q'];
        assert d[i].0 in Keys(init[..q']);
        assert init[..q'] == pairs[..q'];
        PrefixKeys(pairs, q', q);
      } else {
        assert last.0 !in Keys(d) && r == d + [last];
        assert d[i].0 in Keys(d);
        assert pairs[..q] == init;
      }
    }
  }

  /** `dict(pairs)`: the keys of the pairs, each once, in order of first
      occurrence, each with the value of its last occurrence. */
  function Dict(pairs: seq<(string, string)>): (r: Assoc)
    ensures DistinctKeys(r)
    ensures Keys(r) == Keys(pairs)
    ensures LastWins(pairs, r)
    ensures FirstOccurrenceOrder(pairs, r)
    decreases |pairs|
  {
    if |pairs| == 0 then []
    else
      var d := Dict(pairs[..|pairs| - 1]);
      var last := pairs[|pairs| - 1];
      var r := Put(d, last.0, last.1);
      KeysSnoc(pairs);
      DictStep(pairs, d, r);
      DictOrderStep(pairs, d);
      r
  }

  /** Pairs whose keys are already distinct make a dict of the same pairs
      in the same order. */
  lemma {:induction false} DictOfDistinct(pairs: seq<(string, string)>)
    requires DistinctKeys(pairs)
    ensures Dict(pairs) == pairs
    decreases |pairs|
  {
    if |pairs| > 0 {
      var init := pairs[..|pairs| - 1];
      var last := pairs[|pairs| - 1];
      DistinctInit(pairs);
      DictOfDistinct(init);
      DictSnoc(pairs);
      PutLastOfDistinct(pairs, Dict(init));
    }
  }

  /** Storing the last of some pairs with distinct keys over all the others
      gives back the pairs. */
  lemma PutLastOfDistinct(pairs: seq<(string, string)>, d: Assoc)
    requires |pairs| > 0 && DistinctKeys(pairs)
    requires d == pairs[..|pairs| - 1]
    ensures DistinctKeys(d)
    ensures Put(d, pairs[|pairs| - 1].0, pairs[|pairs| - 1].1) == pairs
  {
    DistinctInit(pairs);
    assert d + [pairs[|pairs| - 1]] == pairs;
  }

  /** All but the last of some pairs with distinct keys have distinct keys,
      none of them the last's. */
  lemma DistinctInit(pairs: seq<(string, string)>)
    requires |pairs| > 0 && DistinctKeys(pairs)
    ensures DistinctKeys(pairs[..|pairs| - 1])
    ensures pairs[|pairs| - 1].0 !in Keys(pairs[..|pairs| - 1])
  {
    var init := pairs[..|pairs| - 1];
    forall j | 0 <= j < |init| ensures init[j].0 != pairs[|pairs| - 1].0 {
      assert init[j] == pairs[j];
    }
  }

  /** The last step of `dict`: the last pair is stored over the dict of
      the others. */
  lemma DictSnoc(pairs: seq<(string, string)>)
    requires |pairs| > 0
    ensures Dict(pairs) == Put(Dict(pairs[..|pairs| - 1]), pairs[|pairs| - 1].0, pairs[|pairs| - 1].1)
  {
  }

  /** The piece has exactly one colon: it splits into two parts. */
  predicate OneColon(piece: string) {
    |SplitOn(piece, ':')| == 2
  }

  /** A piece split at its colons must give two parts for `dict` to take
      it; otherwise the source raises ValueError. The key is the text
      before the one colon, the value the text after, both stripped. */
  function PairOf(piece: string): (r: Result<(string, string)>)
    ensures r.Ok? <==> OneColon(piece)
    ensures r.Ok? ==> var parts := SplitOn(piece, ':');
      && piece == parts[0] + ":" + parts[1]
      && r.value == (Strip(parts[0]), Strip(parts[1]))
  {
    var parts := SplitOn(piece, ':');
    if |parts| != 2 then Err("ValueError: dictionary update sequence element has the wrong length")
    else
      JoinSplit(piece, ':');
      assert Join(":", parts) == parts[0] + ":" + parts[1];
      Ok((Strip(parts[0]), Strip(parts[1])))
  }

  /** A key and a value without colons, joined by one, read back as the
      stripped key and value. */
  lemma PairOfJoined(key: string, value: string)
    requires ':' !in key && ':' !in value
    ensures PairOf(key + ":" + value) == Ok((Strip(key), Strip(value)))
  {
    SplitAtFirst(key, value, ':');
    SplitWithoutSep(value, ':');
    assert key + ":" + value == key + [':'] + value;
  }

  /** A piece `dict` accepts: empty (skipped), or one colon. */
  predicate PieceIsPair(piece: string) {
    piece == "" || OneColon(piece)
  }

  /** The pieces the generator's `if x` keeps: the non-empty ones, in order. */
  function NonEmpty(pieces: seq<string>): (r: seq<string>)
    ensures forall x :: x in r <==> x in pieces && x != ""
    decreases |pieces|
  {
    if |pieces| == 0 then []
    else
      var rest := NonEmpty(pieces[1..]);
      assert forall x :: x in pieces <==> x == pieces[0] || x in pieces[1..];
      if pieces[0] == "" then rest else [pieces[0]] + rest
  }

  /** The filter distributes over concatenation, so the kept pieces follow the option text. */
  lemma {:induction false} NonEmptyConcat(a: seq<string>, b: seq<string>)
    ensures NonEmpty(a + b) == NonEmpty(a) + NonEmpty(b)
    decreases |a|
  {
    if |a| == 0 {
      assert a + b == b;
    } else {
      assert (a + b)[1..] == a[1..] + b;
      NonEmptyConcat(a[1..], b);
    }
  }

  /** The pair of each piece, in order; the first piece that is not a pair
      raises. */
  function PairsOfEach(pieces: seq<string>): (r: Result<seq<(string, string)>>)
    ensures r.Ok? ==> |r.value| == |pieces|
    decreases |pieces|
  {
    if |pieces| == 0 then Ok([])
    else
      var first :- PairOf(pieces[0]);
      var rest :- PairsOfEach(pieces[1..]);
      Ok([first] + rest)
  }

  /** The pieces give pairs exactly when each has one colon. */
  lemma {:induction false} PairsOfEachOk(pieces: seq<string>)
    ensures PairsOfEach(pieces).Ok? <==> forall k :: 0 <= k < |pieces| ==> OneColon(pieces[k])
    decreases |pieces|
  {
    if |pieces| > 0 {
      var tail := pieces[1..];
      PairsOfEachOk(tail);
      assert forall k :: 1 <= k < |pieces| ==> pieces[k] == tail[k - 1];
    }
  }

  /** Pair `k` is the pair of piece `k`. */
  lemma {:induction false} PairsOfEachAt(pieces: seq<string>)
    ensures PairsOfEach(pieces).Ok? ==>
      forall k :: 0 <= k < |pieces| ==> PairOf(pieces[k]) == Ok(PairsOfEach(pieces).value[k])
    decreases |pieces|
  {
    var r := PairsOfEach(pieces);
    if |pieces| > 0 && r.Ok? {
      var tail := pieces[1..];
      PairsOfEachAt(tail);
      var rest := PairsOfEach(tail).value;
      assert r.value == [PairOf(pieces[0]).value] + rest;
      forall k | 1 <= k < |pieces| ensures PairOf(pieces[k]) == Ok(r.value[k]) {
        assert pieces[k] == tail[k - 1] && r.value[k] == rest[k - 1];
      }
    }
  }

  /** The pairs of the non-empty comma-separated pieces, in order. */
  function PairsOf(pieces: seq<string>): (r: Result<seq<(string, string)>>)
    ensures r.Ok? <==> forall k :: 0 <= k < |pieces| ==> PieceIsPair(pieces[k])
    ensures r.Ok? ==> |r.value| == |NonEmpty(pieces)| <= |pieces|
    ensures r.Ok? ==> forall k :: 0 <= k < |r.value| ==> PairOf(NonEmpty(pieces)[k]) == Ok(r.value[k])
  {
    NonEmptyIsShorter(pieces);
    KeptToPieces(pieces);
    PiecesToKept(pieces);
    PairsOfEachOk(NonEmpty(pieces));
    PairsOfEachAt(NonEmpty(pieces));
    PairsOfEach(NonEmpty(pieces))
  }

  /** If the kept pieces all have one colon, every piece is empty or has
      one. */
  lemma KeptToPieces(pieces: seq<string>)
    ensures (forall k :: 0 <= k < |NonEmpty(pieces)| ==> OneColon(NonEmpty(pieces)[k]))
      ==> (forall k :: 0 <= k < |pieces| ==> PieceIsPair(pieces[k]))
  {
    var kept := NonEmpty(pieces);
    if forall k :: 0 <= k < |kept| ==> OneColon(kept[k]) {
      forall k | 0 <= k < |pieces| ensures PieceIsPair(pieces[k]) {
        if pieces[k] != "" {
          assert pieces[k] in pieces;
          var j :| 0 <= j < |kept| && kept[j] == pieces[k];
        }
      }
    }
  }

  /** If every piece is empty or has one colon, the kept pieces all have
      one. */
  lemma PiecesToKept(pieces: seq<string>)
    ensures (forall k :: 0 <= k < |pieces| ==> PieceIsPair(pieces[k]))
      ==> (forall k :: 0 <= k < |NonEmpty(pieces)| ==> OneColon(NonEmpty(pieces)[k]))
  {
    var kept := NonEmpty(pieces);
    if forall k :: 0 <= k < |pieces| ==> PieceIsPair(pieces[k]) {
      forall k | 0 <= k < |kept| ensures OneColon(kept[k]) {
        assert kept[k] in kept;
        var j :| 0 <= j < |pieces| && pieces[j] == kept[k];
        assert PieceIsPair(pieces[j]);
      }
    }
  }

  /** Dropping the empty pieces never lengthens the list. */
  lemma {:induction false} NonEmptyIsShorter(pieces: seq<string>)
    ensures |NonEmpty(pieces)| <= |pieces|
    decreases |pieces|
  {
    if |pieces| > 0 {
      NonEmptyIsShorter(pieces[1..]);
    }
  }

  /** `dict` of the pairs of the non-empty comma-separated pieces. */
  function ParsePairs(raw: string): (r: Result<Assoc>)
    ensures r.Ok? <==> forall piece :: piece in SplitOn(raw, ',') ==> PieceIsPair(piece)
    ensures r.Ok? ==> r.value == Dict(PairsOf(SplitOn(raw, ',')).value)
    ensures r.Ok? ==> DistinctKeys(r.value)
  {
    var pairs :- PairsOf(SplitOn(raw, ','));
    Ok(Dict(pairs))
  }

  /** The set of the values of a dict. */
  function Values(a: Assoc): set<string> {
    set i | 0 <= i < |a| :: a[i].1
  }
}

=== FILE: numerals.dfy ===
/** Integer text: Python's `"%d" % n` and `int(s, 0)`. */
module Numerals {
  import opened Results
  import opened Text

  function DigitChar(d: nat): (c: char)
    requires d < 10
    ensures '0' <= c <= '9' && c as int - '0' as int == d
  {
    ('0' as int + d) as char
  }

  /** Decimal digits of `n`, most significant first, without leading zeros. */
  function FormatNat(n: nat): (r: string)
    ensures |r| > 0
    ensures forall k :: 0 <= k < |r| ==> '0' <= r[k] <= '9'
    decreases n
  {
    if n < 10 then [DigitChar(n)] else FormatNat(n / 10) + [DigitChar(n % 10)]
  }

  /** `"%d" % n` */
  function FormatInt(n: int): (r: string)
    ensures |r| > 0
    ensures n < 0 <==> r[0] == '-'
  {
    if n < 0 then "-" + FormatNat(-n) else FormatNat(n)
  }

  /** The value of one digit character in `base` (2, 8, 10 or 16), if it is one. */
  function DigitValue(c: char, base: nat): (r: Option<nat>)
    ensures r.Some? ==> r.value < base
  {
    var v :=
      if '0' <= c <= '9' then c as int - '0' as int
      else if 'a' <= c <= 'z' then c as int - 'a' as int + 10
      else if 'A' <= c <= 'Z' then c as int - 'A' as int + 10
      else 36;
    if 0 <= v < base then Some(v) else None
  }

  /** The value of a digit string in `base`, most significant digit first;
      `None` if some character is not a digit of that base. */
  function DigitsValue(s: string, base: nat): Option<nat>
    decreases |s|
  {
    if |s| == 0 then Some(0)
    else
      match (DigitsValue(s[..|s| - 1], base), DigitValue(s[|s| - 1], base))
      case (Some(hi), Some(d)) => Some(hi * base + d)
      case _ => None
  }

  predicate AllZeros(s: string) {
    forall k :: 0 <= k < |s| ==> s[k] == '0'
  }

  /** Digits grouped the way Python allows: not empty, no underscore first
      or last, and never two underscores in a row. */
  predicate Grouped(s: string) {
    && |s| > 0
    && s[0] != '_'
    && s[|s| - 1] != '_'
    && forall k :: 0 <= k < |s| - 1 ==> s[k] != '_' || s[k + 1] != '_'
  }

  /** The digits with the grouping underscores dropped. */
  function Ungroup(s: string): (r: string)
    ensures '_' !in r
    ensures '_' !in s ==> r == s
    ensures |r| <= |s|
    decreases |s|
  {
    if |s| == 0 then ""
    else
      var rest := Ungroup(s[1..]);
      assert '_' !in s ==> '_' !in s[1..];
      assert s == [s[0]] + s[1..];
      if s[0] == '_' then rest else [s[0]] + rest
  }

  /** The digits after a base prefix: one underscore may follow the prefix
      directly, then grouped digits of `base`. */
  function PrefixedDigits(rest: string, base: nat): Option<nat> {
    var digits := if |rest| > 0 && rest[0] == '_' then rest[1..] else rest;
    if Grouped(digits) then DigitsValue(Ungroup(digits), base) else None
  }

  /** An unsigned Python integer literal: `0x`/`0o`/`0b` prefixed digits, or
      grouped decimal digits that have no leading zero unless they are all
      zeros. */
  function ParseUnsigned(body: string): Option<nat> {
    if |body| >= 2 && body[0] == '0' && (body[1] == 'x' || body[1] == 'X') then
      PrefixedDigits(body[2..], 16)
    else if |body| >= 2 && body[0] == '0' && (body[1] == 'o' || body[1] == 'O') then
      PrefixedDigits(body[2..], 8)
    else if |body| >= 2 && body[0] == '0' && (body[1] == 'b' || body[1] == 'B') then
      PrefixedDigits(body[2..], 2)
    else if !Grouped(body) then None
    else
      var digits := Ungroup(body);
      if body[0] == '0' && !AllZeros(digits) then None
      else DigitsValue(digits, 10)
  }

  /** `int(s, 0)`: surrounding whitespace, an optional sign, then an unsigned
      literal; `None` where Python raises ValueError. */
  function ParseInt(s: string): (r: Option<int>)
    ensures var t := Strip(s);
      var body := if |t| > 0 && (t[0] == '-' || t[0] == '+') then t[1..] else t;
      r.Some? <==> ParseUnsigned(body).Some?
    ensures r.Some? && r.value < 0 ==> |Strip(s)| > 0 && Strip(s)[0] == '-'
  {
    var t := Strip(s);
    var signed := |t| > 0 && (t[0] == '-' || t[0] == '+');
    var negative := signed && t[0] == '-';
    match ParseUnsigned(if signed then t[1..] else t)
    case Some(v) => Some(if negative then -(v as int) else v as int)
    case None => None
  }

  lemma {:induction false} DigitsOfFormatNat(n: nat)
    ensures DigitsValue(FormatNat(n), 10) == Some(n)
    decreases n
  {
    var s := FormatNat(n);
    if n < 10 {
      assert s[..0] == [];
    } else {
      DigitsOfFormatNat(n / 10);
      assert s[..|s| - 1] == FormatNat(n / 10);
      assert s[|s| - 1] == DigitChar(n % 10);
    }
  }

  lemma {:induction false} FormatNatNoLeadingZero(n: nat)
    requires n > 0
    ensures FormatNat(n)[0] != '0'
    decreases n
  {
    if n >= 10 {
      FormatNatNoLeadingZero(n / 10);
    }
  }

  lemma ParseFormatNat(n: nat)
    ensures ParseUnsigned(FormatNat(n)) == Some(n)
  {
    var s := FormatNat(n);
    DigitsOfFormatNat(n);
    assert '_' !in s by {
      forall k | 0 <= k < |s| ensures s[k] != '_' {
      }
    }
    assert Ungroup(s) == s;
    if n == 0 {
      assert s == "0";
    } else {
      FormatNatNoLeadingZero(n);
    }
  }

  lemma StripUnspaced(s: string)
    requires |s| > 0 && !IsSpace(s[0]) && !IsSpace(s[|s| - 1])
    ensures Strip(s) == s
  {
    assert TrimStart(s) == s;
    assert TrimEnd(s) == s;
  }

  lemma DigitIsNotSpace(c: char)
    requires c == '-' || '0' <= c <= '9'
    ensures !IsSpace(c)
  {
  }

  /** Single underscores may stand between digits. */
  lemma GroupedDecimal()
    ensures ParseUnsigned("1_000") == Some(1000)
  {
    assert Ungroup("1_000") == "1000" by {
      assert "1_000"[1..] == "_000" && "_000"[1..] == "000";
      assert Ungroup("000") == "000";
    }
    assert DigitsValue("1000", 10) == Some(1000) by {
      assert "1000"[..3] == "100" && "100"[..2] == "10" && "10"[..1] == "1" && "1"[..0] == "";
    }
  }

  /** Grouped zeros are still zero, not an old-style octal literal. */
  lemma GroupedZeros()
    ensures ParseUnsigned("0_0") == Some(0)
  {
    assert Ungroup("0_0") == "00" by {
      assert "0_0"[1..] == "_0" && "_0"[1..] == "0";
      assert Ungroup("0") == "0";
    }
    assert DigitsValue("00", 10) == Some(0) by {
      assert "00"[..1] == "0" && "0"[..0] == "";
    }
  }

  /** One underscore may follow a base prefix. */
  lemma GroupedPrefixed()
    ensures ParseUnsigned("0x_ff") == Some(255)
  {
    assert "0x_ff"[2..] == "_ff" && "_ff"[1..] == "ff";
    assert Ungroup("ff") == "ff";
    assert DigitsValue("ff", 16) == Some(255) by {
      assert "ff"[..1] == "f" && "f"[..0] == "";
    }
  }

  /** Underscores anywhere else, or no digits at all, are rejected. */
  lemma BadGrouping()
    ensures ParseUnsigned("1__0").None? && ParseUnsigned("_1").None? && ParseUnsigned("1_").None?
    ensures ParseUnsigned("0x").None? && ParseUnsigned("0x_").None? && ParseUnsigned("0x__1").None?
    ensures ParseUnsigned("0_1").None?
  {
    assert !Grouped("1__0") by {
      assert "1__0"[1] == '_' && "1__0"[2] == '_';
    }
    assert "0x"[2..] == "" && "0x_"[2..] == "_" && "_"[1..] == "";
    assert "0x__1"[2..] == "__1" && "__1"[1..] == "_1";
    assert Ungroup("0_1") == "01" by {
      assert "0_1"[1..] == "_1" && "_1"[1..] == "1";
      assert Ungroup("1") == "1";
    }
    assert !AllZeros("01") by {
      assert "01"[1] == '1';
    }
  }

  /** Parsing what `"%d"` formats gives the number back: the auto-increment
      of an enumeration re-reads its own output. */
  lemma ParseFormatInt(n: int)
    ensures ParseInt(FormatInt(n)) == Some(n)
  {
    var s := FormatInt(n);
    var d := FormatNat(if n < 0 then -n else n);
    assert s == (if n < 0 then "-" + d else d);
    DigitIsNotSpace(s[0]);
    DigitIsNotSpace(s[|s| - 1]);
    StripUnspaced(s);
    ParseFormatNat(if n < 0 then -n else n);
    if n < 0 {
      assert s[1..] == d;
    }
  }
}

=== FILE: ordering.dfy ===
/** Python's ordering of `str` values (lexicographic on code points, a
    proper prefix first) and `sorted()` of a set of names. */
module Ordering {

  predicate Less(a: string, b: string)
    decreases |a|
  {
    if |a| == 0 then |b| > 0
    else |b| > 0 && (a[0] < b[0] || (a[0] == b[0] && Less(a[1..], b[1..])))
  }

  lemma {:induction false} LessIrreflexive(a: string)
    ensures !Less(a, a)
    decreases |a|
  {
    if |a| > 0 {
      LessIrreflexive(a[1..]);
    }
  }

  lemma {:induction false} LessTransitive(a: string, b: string, c: string)
    requires Less(a, b) && Less(b, c)
    ensures Less(a, c)
    decreases |a|
  {
    if |a| > 0 && a[0] == b[0] && b[0] == c[0] {
      LessTransitive(a[1..], b[1..], c[1..]);
    }
  }

  lemma {:induction false} LessTotal(a: string, b: string)
    ensures a == b || Less(a, b) || Less(b, a)
    decreases |a|
  {
    if |a| > 0 && |b| > 0 && a[0] == b[0] {
      LessTotal(a[1..], b[1..]);
      if a[1..] == b[1..] {
        assert a == [a[0]] + a[1..] && b == [b[0]] + b[1..];
      }
    }
  }

  /** `m` comes first in `s`. */
  predicate IsLeast(m: string, s: set<string>) {
    m in s && forall y | y in s && y != m :: Less(m, y)
  }

  lemma {:induction false} LeastOf(s: set<string>) returns (m: string)
    requires s != {}
    ensures IsLeast(m, s)
    decreases |s|
  {
    var x :| x in s;
    if s == {x} {
      m := x;
    } else {
      var m' := LeastOf(s - {x});
      LessTotal(x, m');
      if Less(x, m') {
        forall y | y in s && y != x
          ensures Less(x, y)
        {
          if y != m' {
            LessTransitive(x, m', y);
          }
        }
        m := x;
      } else {
        m := m';
      }
    }
  }

  /** `sorted(s)`: every name of `s` exactly once, in strictly increasing order. */
  method SortedNames(s: set<string>) returns (r: seq<string>)
    ensures |r| == |s|
    ensures forall x :: x in r <==> x in s
    ensures forall i, j :: 0 <= i < j < |r| ==> Less(r[i], r[j])
  {
    var rest := s;
    r := [];
    while rest != {}
      invariant rest <= s
      invariant |r| + |rest| == |s|
      invariant forall x :: x in s <==> x in r || x in rest
      invariant forall i :: 0 <= i < |r| ==> r[i] !in rest
      invariant forall i, j :: 0 <= i < j < |r| ==> Less(r[i], r[j])
      invariant forall i, y :: 0 <= i < |r| && y in rest ==> Less(r[i], y)
      decreases |rest|
    {
      ghost var least := LeastOf(rest);
      assert IsLeast(least, rest);
      var m :| m in rest && forall z | z in rest && z != m :: Less(m, z);
      assert rest == (rest - {m}) + {m};
      r := r + [m];
      rest := rest - {m};
    }
  }
}

=== FILE: results.dfy ===
/** Failure-compatible result and option types. An `Err` stands for a Python
    exception that escapes the generator (or a runtime call) and ends it. */
module Results {

  datatype Option<+T> = None | Some(value: T)

  datatype Result<+T> = Ok(value: T) | Err(error: string) {

    predicate IsFailure() {
      Err?
    }

    function PropagateFailure<U>(): Result<U>
      requires Err?
    {
      Err(error)
    }

    function Extract(): T
      requires Ok?
    {
      value
    }
  }
}

=== FILE: runtime.dfy ===
/** The decision logic of the runtime prefix every generated module starts
    with (ctypes_core_prefix.py): the parameter flags of a binding, the
    error checks of the four binding constructors, disposal of managed
    handles, bounds-checked native arrays, and the conversion of array
    arguments. Native calls stay uninterpreted: their results are
    parameters. */
module Runtime {
  import opened Results

  /** A parameter record of a binding: name, ctypes type, and the default
      a 3-element record carries. */
  datatype BindParam = BindParam(name: string, ctype: string, default: Option<string>)

  /** A ctypes `paramflags` entry: direction 1 (input) or 2 (output). */
  datatype Flag = Flag(direction: int, name: string, default: Option<string>)

  /** ctypes_core_prefix.py:42-51 */
  function ParamFlags(params: seq<BindParam>, out: Option<seq<string>>): (r: seq<Flag>)
    ensures |r| == |params|
    ensures forall k :: 0 <= k < |params| ==> r[k].name == params[k].name && r[k].default == params[k].default
    ensures forall k :: 0 <= k < |params| ==>
      (r[k].direction == 2 <==> out.Some? && params[k].name in out.value)
    ensures forall k :: 0 <= k < |params| ==> r[k].direction == 1 || r[k].direction == 2
  {
    seq(|params|, k requires 0 <= k < |params| =>
      Flag(if out.Some? && params[k].name in out.value then 2 else 1, params[k].name, params[k].default))
  }

  /** What a native call can hand to an error check: None, a Python int,
      or a ctypes instance whose `value` attribute is missing, None or an
      int. */
  datatype Attr = Missing | AttrNone | AttrInt(i: int)
  datatype PyResult = PyNone | PyInt(i: int) | PyObject(value: Attr)

  /** The result's `value` attribute, or 1 when it has none. */
  function ValueOr1(r: PyResult): Attr {
    match r
    case PyObject(v) => if v == Missing then AttrInt(1) else v
    case _ => AttrInt(1)
  }

  /** `result == 0`: only an int equals 0; a ctypes instance compares by
      identity. */
  predicate EqualsZero(r: PyResult) {
    r == PyInt(0)
  }

  /** The STDFUNC check (ctypes_core_prefix.py:64-67): a zero status is an
      error. */
  predicate StdRaises(status: int) {
    status == 0
  }

  /** The DXFUNC check (ctypes_core_prefix.py:84-87): any non-zero status
      is an error. */
  predicate DxRaises(status: int) {
    status != 0
  }

  /** The STDPTRFUNC check (ctypes_core_prefix.py:73-78): a null pointer
      in any of the shapes a native call returns it. */
  function StdPtrRaises(r: PyResult): (raise: bool)
    ensures r.PyNone? ==> raise
    ensures r.PyInt? ==> (raise <==> r.i == 0)
    ensures r.PyObject? ==> (raise <==> r.value == AttrNone || r.value == AttrInt(0))
  {
    || r == PyNone
    || EqualsZero(r)
    || ValueOr1(r) == AttrNone
    || ValueOr1(r) == AttrInt(0)
  }

  /** The four binding constructors. */
  datatype Constructor = RetFunc | StdFunc | StdPtrFunc | DxFunc

  /** An error check: one of the constructors' own, or a function of the
      caller's (named by an index). */
  datatype Checker = StdCheck | StdPtrCheck | DxCheck | CallerCheck(id: int)

  /** The `errcheck` keyword: absent, `None`, or a check. */
  datatype ErrcheckArg = NotGiven | GivenNone | Given(check: Checker)

  /** `kwargs.setdefault("errcheck", default)` */
  function SetDefault(arg: ErrcheckArg, default: ErrcheckArg): ErrcheckArg {
    if arg.NotGiven? then default else arg
  }

  /** The check each constructor supplies; RETFUNC supplies none. */
  function DefaultCheck(c: Constructor): ErrcheckArg {
    match c
    case RetFunc => NotGiven
    case StdFunc => Given(StdCheck)
    case StdPtrFunc => Given(StdPtrCheck)
    case DxFunc => Given(DxCheck)
  }

  /** The check a binding ends up with (ctypes_core_prefix.py:54-55, 69,
      80, 89): RETFUNC installs `errcheck` only when it is not None, so the
      caller's choice, `None` included, wins over the constructor's. */
  function Installed(c: Constructor, arg: ErrcheckArg): (r: Option<Checker>)
    ensures arg.Given? ==> r == Some(arg.check)
    ensures arg.GivenNone? ==> r.None?
    ensures arg.NotGiven? ==> (r.None? <==> c == RetFunc)
    ensures arg.NotGiven? && c == StdFunc ==> r == Some(StdCheck)
    ensures arg.NotGiven? && c == StdPtrFunc ==> r == Some(StdPtrCheck)
    ensures arg.NotGiven? && c == DxFunc ==> r == Some(DxCheck)
  {
    match SetDefault(arg, DefaultCheck(c))
    case Given(check) => Some(check)
    case _ => None
  }

  /** What happens after the native call returns. */
  datatype Outcome = Unchecked | ReturnsArgs | RaisesImaqError | RaisesImaqDxError(code: PyResult) | CallerDecides

  /** The installed check applied to the native result. The status
      constructors' results arrive as Python ints. */
  function Check(checker: Option<Checker>, r: PyResult): (o: Outcome)
    ensures checker.None? <==> o == Unchecked
    ensures checker == Some(StdCheck) && r.PyInt? ==> (o == RaisesImaqError <==> StdRaises(r.i))
    ensures checker == Some(DxCheck) && r.PyInt? ==> (o.RaisesImaqDxError? <==> DxRaises(r.i))
    ensures o.RaisesImaqDxError? ==> o.code == r
    ensures checker == Some(StdPtrCheck) ==> (o == RaisesImaqError <==> StdPtrRaises(r))
    ensures o != Unchecked && o != CallerDecides && o != ReturnsArgs ==> checker.Some? && !checker.value.CallerCheck?
    ensures checker.Some? && !checker.value.CallerCheck? && o != RaisesImaqError && !o.RaisesImaqDxError? ==> o == ReturnsArgs
    ensures checker.Some? && checker.value.CallerCheck? ==> o == CallerDecides
  {
    match checker
    case None => Unchecked
    case Some(StdCheck) => if EqualsZero(r) then RaisesImaqError else ReturnsArgs
    case Some(StdPtrCheck) => if StdPtrRaises(r) then RaisesImaqError else ReturnsArgs
    case Some(DxCheck) =>
      if !EqualsZero(r) then RaisesImaqDxError(r) else ReturnsArgs
    case Some(CallerCheck(_)) => CallerDecides
  }

  /** The STDFUNC and DXFUNC checks split every status between them: the
      one raises exactly where the other returns the arguments. */
  lemma StatusConventionsOpposite(status: int)
    ensures Check(Some(StdCheck), PyInt(status)) == RaisesImaqError <==> Check(Some(DxCheck), PyInt(status)) == ReturnsArgs
    ensures Check(Some(StdCheck), PyInt(status)) == ReturnsArgs <==> Check(Some(DxCheck), PyInt(status)).RaisesImaqDxError?
  {
  }

  /** A status binding built with the constructor's own check raises
      exactly on its convention's error status. */
  lemma DefaultChecksFollowConventions(status: int)
    ensures Check(Installed(StdFunc, NotGiven), PyInt(status)) == RaisesImaqError <==> StdRaises(status)
    ensures Check(Installed(DxFunc, NotGiven), PyInt(status)).RaisesImaqDxError? <==> DxRaises(status)
    ensures Check(Installed(StdFunc, GivenNone), PyInt(status)) == Unchecked
  {
  }

  /** An object `imaqDispose` can be handed: a plain Python int (no
      `_contents`, no `value`), or a managed object whose `_contents` and
      `value` hold a native handle or None. */
  datatype Disposable = PlainInt(i: int) | Managed(contents: Option<int>, value: Option<int>)

  /** The handles passed to the native dispose, in order, the object
      afterwards, and whether the native dispose's STDFUNC check raised. */
  datatype Disposal = Disposal(obj: Disposable, calls: seq<int>, raised: bool)

  /** Releasing `value` (ctypes_core_prefix.py:139-141). */
  function DisposeValue(o: Disposable, calls: seq<int>, status: int -> int): (d: Disposal)
    ensures o.Managed? && o.value.Some? ==>
      d.calls == calls + [o.value.value] && (d.raised <==> StdRaises(status(o.value.value)))
    ensures !(o.Managed? && o.value.Some?) ==> d == Disposal(o, calls, false)
    ensures o.Managed? && !d.raised ==> d.obj == Managed(o.contents, None)
  {
    match o
    case PlainInt(_) => Disposal(o, calls, false)
    case Managed(c, v) =>
      match v
      case None => Disposal(o, calls, false)
      case Some(h) =>
        if StdRaises(status(h)) then Disposal(o, calls + [h], true)
        else Disposal(Managed(c, None), calls + [h], false)
  }

  /** `imaqDispose(obj)` (ctypes_core_prefix.py:135-141): `_contents`
      first, then `value`, each released when present and then cleared.
      `status` is the native dispose's return for each handle; a zero
      raises ImaqError and stops the disposal with the attribute still set. */
  function Dispose(o: Disposable, status: int -> int): (d: Disposal)
    ensures o.PlainInt? ==> d == Disposal(o, [], false)
    ensures o.Managed? && !d.raised ==>
      && d.obj == Managed(None, None)
      && d.calls == (if o.contents.Some? then [o.contents.value] else []) + (if o.value.Some? then [o.value.value] else [])
    ensures d.raised <==> exists k :: 0 <= k < |d.calls| && StdRaises(status(d.calls[k]))
    ensures d.raised ==> StdRaises(status(d.calls[|d.calls| - 1]))
    ensures o.Managed? && o.contents.Some? && StdRaises(status(o.contents.value)) ==>
      d == Disposal(o, [o.contents.value], true)
    ensures o.Managed? && d.raised && !(o.contents.Some? && StdRaises(status(o.contents.value))) ==>
      && o.value.Some?
      && d == Disposal(Managed(None, o.value),
                       (if o.contents.Some? then [o.contents.value] else []) + [o.value.value], true)
  {
    match o
    case PlainInt(_) => Disposal(o, [], false)
    case Managed(c, v) =>
      match c
      case None =>
        var d := DisposeValue(o, [], status);
        assert d.raised ==> d.calls[0] == v.value;
        d
      case Some(h) =>
        if StdRaises(status(h)) then
          assert [h][0] == h;
          Disposal(o, [h], true)
        else
          var d := DisposeValue(Managed(None, v), [h], status);
          assert d.calls[0] == h;
          assert d.raised ==> d.calls[1] == v.value;
          d
  }

  /** Disposal is idempotent: once a disposal has gone through, a second
      one makes no native call and changes nothing (tests/test_dispose.py). */
  lemma DisposeTwiceIsNoOp(o: Disposable, status: int -> int)
    requires !Dispose(o, status).raised
    ensures var once := Dispose(o, status).obj;
      Dispose(once, status) == Disposal(once, [], false)
  {
  }

  /** After disposal the object holds no handle (tests/test_dispose.py:10,
      29, 48). */
  lemma DisposeClears(o: Disposable, status: int -> int)
    requires o.Managed? && !Dispose(o, status).raised
    ensures Dispose(o, status).obj.contents.None? && Dispose(o, status).obj.value.None?
  {
  }

  /** A bounds-checked view of a native buffer (ctypes_core_prefix.py:167-188).
      The buffer is memory the model does not bound: a total function. */
  datatype ImaqArray<T> = ImaqArray(contents: int -> T, length: int)

  predicate InBounds<T>(a: ImaqArray<T>, key: int) {
    !(key < 0 || key > a.length - 1)
  }

  function Len<T>(a: ImaqArray<T>): (r: int)
    ensures forall k :: GetItem(a, k).Ok? <==> 0 <= k < r
  {
    a.length
  }

  function GetItem<T>(a: ImaqArray<T>, key: int): (r: Result<T>)
    ensures r.Ok? <==> 0 <= key < a.length
    ensures r.Ok? ==> r.value == a.contents(key)
  {
    if !InBounds(a, key) then Err("IndexError") else Ok(a.contents(key))
  }

  function SetItem<T>(a: ImaqArray<T>, key: int, value: T): (r: Result<ImaqArray<T>>)
    ensures r.Ok? <==> 0 <= key < a.length
    ensures r.Ok? ==> Len(r.value) == Len(a)
  {
    if !InBounds(a, key) then Err("IndexError")
    else Ok(ImaqArray((k: int) => if k == key then value else a.contents(k), a.length))
  }

  /** `del` is checked like the others, then always refused by the native
      pointer. */
  function DelItem<T>(a: ImaqArray<T>, key: int): (r: Result<ImaqArray<T>>)
    ensures r.Err?
    ensures r.error == (if 0 <= key < a.length then "TypeError" else "IndexError")
  {
    if !InBounds(a, key) then Err("IndexError") else Err("TypeError")
  }

  /** Writing an element and reading it back gives the value written;
      every other element reads as before. */
  lemma SetThenGet<T>(a: ImaqArray<T>, key: int, value: T, other: int)
    requires SetItem(a, key, value).Ok?
    ensures GetItem(SetItem(a, key, value).value, key) == Ok(value)
    ensures other != key ==> GetItem(SetItem(a, key, value).value, other) == GetItem(a, other)
  {
  }

  /** An array argument: an object with a `_length_` attribute (a ctypes
      array, or an ImaqArray), or any other sized iterable. */
  datatype ArrayArg<T> = WithLength(items: seq<T>, declared: int) | Plain(items: seq<T>)

  /** `iterableToArray(param, type)` (ctypes_core_prefix.py:213-222). */
  function IterableToArray<T>(param: ArrayArg<T>): (r: (ArrayArg<T>, int))
    ensures param.WithLength? ==> r == (param, param.declared)
    ensures param.Plain? ==> r.0 == WithLength(param.items, |param.items|) && r.1 == |param.items|
  {
    match param
    case WithLength(_, n) => (param, n)
    case Plain(items) => (WithLength(items, |items|), |items|)
  }

  /** The returned length is the returned array's own, and converting the
      result again changes nothing. */
  lemma IterableToArrayIdempotent<T>(param: ArrayArg<T>)
    ensures IterableToArray(param).0.WithLength?
    ensures IterableToArray(param).0.declared == IterableToArray(param).1
    ensures IterableToArray(IterableToArray(param).0) == IterableToArray(param)
  {
  }

  /** `imaqGetErrorText` as its result text and the native dispose calls. */
  datatype ErrorText = ErrorText(text: Result<string>, calls: seq<int>)

  /** ctypes_core_prefix.py:99-105 as written. `_imaqGetErrorText` has a
      `c_void_p` result, which ctypes hands back as a plain int (or None),
      so the `imaqDispose(d)` that follows finds neither `_contents` nor
      `value` and releases nothing. */
  function ErrorTextAsWritten(d: Option<int>, read: int -> string, status: int -> int): (r: ErrorText)
    ensures d.None? || d == Some(0) ==> r == ErrorText(Ok("Unknown Error."), [])
    ensures d.Some? && d.value != 0 ==> r == ErrorText(Ok(read(d.value)), [])
  {
    if d.None? || d == Some(0) then ErrorText(Ok("Unknown Error."), [])
    else
      var disposal := Dispose(PlainInt(d.value), status);
      ErrorText(Ok(read(d.value)), disposal.calls)
  }

  /** The native buffer holding a message is never released. */
  lemma ErrorTextLeaksBuffer(d: int, read: int -> string, status: int -> int)
    requires d != 0
    ensures d !in ErrorTextAsWritten(Some(d), read, status).calls
  {
  }

  /** `imaqGetErrorText` disposing the buffer it read, as the call to
      `imaqDispose` intends: the handle is wrapped so that disposal sees
      it as `value`. */
  function ErrorTextDisposing(d: Option<int>, read: int -> string, status: int -> int): (r: ErrorText)
    ensures d.None? || d == Some(0) ==> r == ErrorText(Ok("Unknown Error."), [])
    ensures d.Some? && d.value != 0 ==> r.calls == [d.value]
    ensures d.Some? && d.value != 0 ==> (r.text.Ok? <==> !StdRaises(status(d.value)))
    ensures r.text.Ok? && d.Some? && d.value != 0 ==> r.text.value == read(d.value)
  {
    if d.None? || d == Some(0) then ErrorText(Ok("Unknown Error."), [])
    else
      var disposal := Dispose(Managed(None, Some(d.value)), status);
      if disposal.raised then ErrorText(Err("ImaqError"), disposal.calls)
      else ErrorText(Ok(read(d.value)), disposal.calls)
  }
}

=== FILE: text.dfy ===
/** The Python `str` operations the generator relies on, over `seq<char>`:
    prefix/suffix tests, `s[:-1]`, `strip()`, `split(sep)`, `split()`,
    `sep.join(parts)`, the `in` substring test and `c * n`. */
module Text {

  /** Python's `str.isspace()` for one character: the ASCII controls
      TAB..CR and FS..US, SPACE, NEL, NO-BREAK SPACE and the Unicode
      space separators. */
  predicate IsSpace(c: char) {
    var n := c as int;
    (9 <= n <= 13) || (28 <= n <= 32) || n == 0x85 || n == 0xA0 || n == 0x1680
    || (0x2000 <= n <= 0x200A) || n == 0x2028 || n == 0x2029 || n == 0x202F
    || n == 0x205F || n == 0x3000
  }

  predicate StartsWith(s: string, prefix: string) {
    |prefix| <= |s| && s[..|prefix|] == prefix
  }

  predicate EndsWith(s: string, suffix: string) {
    |suffix| <= |s| && s[|s| - |suffix|..] == suffix
  }

  /** `s[-1] == c`, false on the empty string. */
  predicate LastIs(s: string, c: char) {
    |s| > 0 && s[|s| - 1] == c
  }

  /** Python's `s[:-1]`: the empty string stays empty. */
  function DropLast(s: string): (r: string)
    ensures |s| > 0 ==> |r| == |s| - 1 && s == r + [s[|s| - 1]]
    ensures |s| == 0 ==> r == s
  {
    if |s| == 0 then s else s[..|s| - 1]
  }

  /** Python's `s[n:]`, which is empty when `n` is past the end. */
  function DropFirst(s: string, n: nat): (r: string)
    ensures n <= |s| ==> s == s[..n] + r
    ensures |s| <= n ==> r == []
  {
    if n <= |s| then s[n..] else []
  }

  /** `s.lstrip()`: the longest suffix of `s` not starting with whitespace. */
  function TrimStart(s: string): (r: string)
    ensures |r| <= |s| && r == s[|s| - |r|..]
    ensures forall k :: 0 <= k < |s| - |r| ==> IsSpace(s[k])
    ensures |r| > 0 ==> !IsSpace(r[0])
    decreases |s|
  {
    if |s| > 0 && IsSpace(s[0]) then TrimStart(s[1..]) else s
  }

  /** `s.rstrip()`: the longest prefix of `s` not ending with whitespace. */
  function TrimEnd(s: string): (r: string)
    ensures |r| <= |s| && r == s[..|r|]
    ensures forall k :: |r| <= k < |s| ==> IsSpace(s[k])
    ensures |r| > 0 ==> !IsSpace(r[|r| - 1])
    decreases |s|
  {
    if |s| > 0 && IsSpace(s[|s| - 1]) then TrimEnd(s[..|s| - 1]) else s
  }

  /** `s.strip()` */
  function Strip(s: string): (r: string)
    ensures |r| <= |s|
    ensures |r| > 0 ==> !IsSpace(r[0]) && !IsSpace(r[|r| - 1])
  {
    TrimEnd(TrimStart(s))
  }

  /** `sep.join(parts)` */
  function Join(sep: string, parts: seq<string>): string
    decreases |parts|
  {
    if |parts| == 0 then ""
    else if |parts| == 1 then parts[0]
    else parts[0] + sep + Join(sep, parts[1..])
  }

  /** `s.split(sep)` for a one-character separator: never empty, and the
      empty string splits into one empty piece. */
  function SplitOn(s: string, sep: char): (r: seq<string>)
    ensures |r| >= 1
    ensures forall k :: 0 <= k < |r| ==> sep !in r[k]
    decreases |s|
  {
    if |s| == 0 then [""]
    else if s[0] == sep then [""] + SplitOn(s[1..], sep)
    else
      var rest := SplitOn(s[1..], sep);
      [[s[0]] + rest[0]] + rest[1..]
  }

  /** Splitting and re-joining with the same separator gives the string back. */
  lemma {:induction false} JoinSplit(s: string, sep: char)
    ensures Join([sep], SplitOn(s, sep)) == s
    decreases |s|
  {
    if |s| == 0 {
    } else if s[0] == sep {
      var rest := SplitOn(s[1..], sep);
      JoinSplit(s[1..], sep);
      assert SplitOn(s, sep) == [""] + rest;
      assert ([""] + rest)[1..] == rest;
    } else {
      var rest := SplitOn(s[1..], sep);
      JoinSplit(s[1..], sep);
      var parts := [[s[0]] + rest[0]] + rest[1..];
      assert SplitOn(s, sep) == parts;
      if |rest| == 1 {
        assert Join([sep], rest) == rest[0];
        assert s == [s[0]] + s[1..];
      } else {
        assert parts[1..] == rest[1..];
        assert Join([sep], rest) == rest[0] + [sep] + Join([sep], rest[1..]);
        assert s == [s[0]] + s[1..];
      }
    }
  }

  /** A string without the separator splits into itself. */
  lemma {:induction false} SplitWithoutSep(s: string, sep: char)
    requires sep !in s
    ensures SplitOn(s, sep) == [s]
    decreases |s|
  {
    if |s| > 0 {
      SplitWithoutSep(s[1..], sep);
      assert [s[0]] + s[1..] == s;
    }
  }

  /** Splitting at the first separator: the text before it, then the
      pieces of the rest. */
  lemma {:induction false} SplitAtFirst(a: string, b: string, sep: char)
    requires sep !in a
    ensures SplitOn(a + [sep] + b, sep) == [a] + SplitOn(b, sep)
    decreases |a|
  {
    var s := a + [sep] + b;
    if |a| == 0 {
      assert s[1..] == b;
    } else {
      assert s[1..] == a[1..] + [sep] + b;
      SplitAtFirst(a[1..], b, sep);
      assert [a[0]] + a[1..] == a;
    }
  }

  /** `s.split()`: the maximal runs of non-whitespace characters, in order. */
  function Words(s: string): (r: seq<string>)
    ensures forall k :: 0 <= k < |r| ==> |r[k]| > 0
    ensures forall k, j :: 0 <= k < |r| && 0 <= j < |r[k]| ==> !IsSpace(r[k][j])
    ensures |s| > 0 && !IsSpace(s[0]) ==> |r| > 0 && r[0][0] == s[0]
    decreases |s|
  {
    if |s| == 0 then []
    else if IsSpace(s[0]) then Words(s[1..])
    else
      var rest := Words(s[1..]);
      if |s| > 1 && !IsSpace(s[1]) then [[s[0]] + rest[0]] + rest[1..]
      else [[s[0]]] + rest
  }

  function Concat(parts: seq<string>): string
    decreases |parts|
  {
    if |parts| == 0 then "" else parts[0] + Concat(parts[1..])
  }

  /** The characters of `s` that are not whitespace, in order. */
  function NonSpace(s: string): string
    decreases |s|
  {
    if |s| == 0 then ""
    else if IsSpace(s[0]) then NonSpace(s[1..])
    else [s[0]] + NonSpace(s[1..])
  }

  /** `split()` loses exactly the whitespace: its words, run together, are
      the non-whitespace characters of the input. */
  lemma {:induction false} WordsKeepNonSpace(s: string)
    ensures Concat(Words(s)) == NonSpace(s)
    decreases |s|
  {
    if |s| == 0 {
    } else if IsSpace(s[0]) {
      WordsKeepNonSpace(s[1..]);
    } else {
      var rest := Words(s[1..]);
      WordsKeepNonSpace(s[1..]);
      if |s| > 1 && !IsSpace(s[1]) {
        var parts := [[s[0]] + rest[0]] + rest[1..];
        assert parts[1..] == rest[1..];
        assert Concat(rest) == rest[0] + Concat(rest[1..]);
        assert Concat(parts) == [s[0]] + rest[0] + Concat(rest[1..]);
      } else {
        var parts := [[s[0]]] + rest;
        assert parts[1..] == rest;
      }
    }
  }

  /** Python's `sub in s` on strings. */
  predicate Contains(s: string, sub: string)
    decreases |s|
  {
    StartsWith(s, sub) || (|s| > 0 && Contains(s[1..], sub))
  }

  /** A string that contains `sub` has an occurrence of it at some index. */
  lemma {:induction false} ContainsAt(s: string, sub: string) returns (i: nat)
    requires Contains(s, sub)
    ensures i + |sub| <= |s| && s[i..i + |sub|] == sub
    decreases |s|
  {
    if StartsWith(s, sub) {
      i := 0;
    } else {
      var j := ContainsAt(s[1..], sub);
      assert s[1..][j..j + |sub|] == s[j + 1..j + 1 + |sub|];
      i := j + 1;
    }
  }

  /** `c * n` */
  function Repeat(c: char, n: nat): (r: string)
    ensures |r| == n
    ensures forall k :: 0 <= k < n ==> r[k] == c
  {
    if n == 0 then "" else [c] + Repeat(c, n - 1)
  }
}

=== FILE: wrappers.dfy ===
/** The Python wrapper `function` writes after a private binding when the
    binding alone cannot do the job (gen_wrap.py:280-356): it converts
    array arguments, allocates the output parameters, calls the binding
    and assembles the return value. */
module Wrappers {
  import opened Results
  import opened Text
  import opened Context
  import opened HintLists
  import opened Declarations
  import opened Inference

  /** The declared parameter names, in order. */
  function ParamNames(params: seq<Param>): (r: seq<string>)
    ensures |r| == |params| && forall k :: 0 <= k < |params| ==> r[k] == params[k].name
  {
    seq(|params|, k requires 0 <= k < |params| => params[k].name)
  }

  /** The wrapper's own parameters: the declared names, in order, less the
      outputs and the size parameters. The declared `void` is not skipped
      here. */
  function WrapperParams(names: seq<string>, outs: seq<string>, sizeParams: set<string>): (r: seq<string>)
    ensures |r| <= |names|
    ensures forall x :: x in r <==> x in names && x !in outs && x !in sizeParams
    decreases |names|
  {
    if |names| == 0 then []
    else
      var rest := WrapperParams(names[1..], outs, sizeParams);
      assert forall x :: x in names <==> x == names[0] || x in names[1..];
      var p := names[0];
      if p in outs || p in sizeParams then rest else [p] + rest
  }

  /** The filter distributes over concatenation, so the wrapper lists its parameters in declaration order. */
  lemma {:induction false} WrapperParamsConcat(a: seq<string>, b: seq<string>, outs: seq<string>, sizeParams: set<string>)
    ensures WrapperParams(a + b, outs, sizeParams) == WrapperParams(a, outs, sizeParams) + WrapperParams(b, outs, sizeParams)
    decreases |a|
  {
    if |a| == 0 {
      assert a + b == b;
    } else {
      assert (a + b)[1..] == a[1..] + b;
      WrapperParamsConcat(a[1..], b, outs, sizeParams);
    }
  }

  /** The element type of a sized parameter: its declared pointer type
      with the last character dropped, mapped. `Err` is the KeyError of a
      sized name that is not a parameter, or the mapper's. */
  function ElementType(ctx: GenContext, types: map<string, (string, Option<string>)>, p: string): (r: Result<string>)
    ensures r.Ok? <==> p in types && MapType(ctx, DropLast(types[p].0), types[p].1).Ok?
    ensures r.Ok? ==> r.value == MapType(ctx, DropLast(types[p].0), types[p].1).value
  {
    if p !in types then Err("KeyError: " + p)
    else MapType(ctx, DropLast(types[p].0), types[p].1)
  }

  function ArrayLine(p: string, size: string, ctype: string): string {
    "    " + p + ", " + size + " = iterableToArray(" + p + ", " + ctype + ")"
  }

  /** One conversion line per `arraysize` pair, in the dict's order. */
  function ArrayLines(ctx: GenContext, types: map<string, (string, Option<string>)>, sized: Assoc): (r: Result<seq<string>>)
    ensures r.Ok? <==> forall k :: 0 <= k < |sized| ==> ElementType(ctx, types, sized[k].0).Ok?
    ensures r.Ok? ==> |r.value| == |sized|
    ensures r.Ok? ==> forall k :: 0 <= k < |sized| ==>
      r.value[k] == ArrayLine(sized[k].0, sized[k].1, ElementType(ctx, types, sized[k].0).value)
    decreases |sized|
  {
    if |sized| == 0 then Ok([])
    else
      match ElementType(ctx, types, sized[0].0)
      case Err(e) => Err(e)
      case Ok(ctype) =>
        var rest := ArrayLines(ctx, types, sized[1..]);
        assert forall k :: 1 <= k < |sized| ==> sized[k] == sized[1..][k - 1];
        match rest
        case Err(e) =>
          assert exists k :: 0 <= k < |sized| && !ElementType(ctx, types, sized[k].0).Ok? by {
            var k :| 0 <= k < |sized[1..]| && !ElementType(ctx, types, sized[1..][k].0).Ok?;
            assert sized[1..][k] == sized[k + 1];
          }
          Err(e)
        case Ok(lines) => Ok([ArrayLine(sized[0].0, sized[0].1, ctype)] + lines)
  }

  /** The outputs that get a placeholder: those that are not also sized
      array parameters, in order. */
  function Placed(outs: seq<string>, sizedNames: set<string>): (r: seq<string>)
    ensures |r| <= |outs|
    ensures forall x :: x in r <==> x in outs && x !in sizedNames
    decreases |outs|
  {
    if |outs| == 0 then []
    else
      var rest := Placed(outs[1..], sizedNames);
      assert forall x :: x in outs <==> x == outs[0] || x in outs[1..];
      if outs[0] in sizedNames then rest else [outs[0]] + rest
  }

  /** The filter distributes over concatenation, so placeholders come in `outparams` order. */
  lemma {:induction false} PlacedConcat(a: seq<string>, b: seq<string>, sizedNames: set<string>)
    ensures Placed(a + b, sizedNames) == Placed(a, sizedNames) + Placed(b, sizedNames)
    decreases |a|
  {
    if |a| == 0 {
      assert a + b == b;
    } else {
      assert (a + b)[1..] == a[1..] + b;
      PlacedConcat(a[1..], b, sizedNames);
    }
  }

  /** An allocated output: the line that creates it and the expression the
      wrapper returns for it. */
  datatype Placeholder = Placeholder(line: string, retparam: string)

  /** An output pointing to an enumeration is allocated as 0 and returned
      as the object; any other is default-constructed and returned as its
      `.value`. */
  function PlaceholderFor(ctx: GenContext, types: map<string, (string, Option<string>)>, p: string): (r: Result<Placeholder>)
    ensures r.Ok? <==> ElementType(ctx, types, p).Ok?
    ensures r.Ok? ==>
      var isEnum := DropLast(types[p].0) in ctx.enums;
      && r.value.line == "    " + p + " = " + ElementType(ctx, types, p).value + "(" + (if isEnum then "0" else "") + ")"
      && r.value.retparam == (if isEnum then p else p + ".value")
  {
    var ctype :- ElementType(ctx, types, p);
    var isEnum := DropLast(types[p].0) in ctx.enums;
    Ok(Placeholder("    " + p + " = " + ctype + "(" + (if isEnum then "0" else "") + ")",
                   if isEnum then p else p + ".value"))
  }

  function Placeholders(ctx: GenContext, types: map<string, (string, Option<string>)>, placed: seq<string>): (r: Result<seq<Placeholder>>)
    ensures r.Ok? <==> forall k :: 0 <= k < |placed| ==> ElementType(ctx, types, placed[k]).Ok?
    ensures r.Ok? ==> |r.value| == |placed|
    ensures r.Ok? ==> forall k :: 0 <= k < |placed| ==> PlaceholderFor(ctx, types, placed[k]) == Ok(r.value[k])
    decreases |placed|
  {
    if |placed| == 0 then Ok([])
    else
      match PlaceholderFor(ctx, types, placed[0])
      case Err(e) => Err(e)
      case Ok(h) =>
        var rest := Placeholders(ctx, types, placed[1..]);
        assert forall k :: 1 <= k < |placed| ==> placed[k] == placed[1..][k - 1];
        match rest
        case Err(e) => Err(e)
        case Ok(hs) => Ok([h] + hs)
  }

  function HolderLines(hs: seq<Placeholder>): (r: seq<string>)
    ensures |r| == |hs| && forall k :: 0 <= k < |hs| ==> r[k] == hs[k].line
  {
    seq(|hs|, k requires 0 <= k < |hs| => hs[k].line)
  }

  function RetParams(hs: seq<Placeholder>): (r: seq<string>)
    ensures |r| == |hs| && forall k :: 0 <= k < |hs| ==> r[k] == hs[k].retparam
  {
    seq(|hs|, k requires 0 <= k < |hs| => hs[k].retparam)
  }

  /** The arguments of the call to the private binding, one per declared
      parameter: a placed output by reference, anything else by name. */
  function CallArgs(params: seq<Param>, outs: seq<string>, sizedNames: set<string>): (r: seq<string>)
    ensures |r| == |params|
    ensures forall k :: 0 <= k < |params| ==>
      r[k] == (if params[k].name in outs && params[k].name !in sizedNames
               then "ctypes.byref(" + params[k].name + ")" else params[k].name)
  {
    seq(|params|, k requires 0 <= k < |params| =>
      if params[k].name in outs && params[k].name !in sizedNames
      then "ctypes.byref(" + params[k].name + ")" else params[k].name)
  }

  /** The position of the first `x` in `xs`. */
  function FirstIndex(xs: seq<string>, x: string): (i: nat)
    requires x in xs
    ensures i < |xs| && xs[i] == x && x !in xs[..i]
    decreases |xs|
  {
    if xs[0] == x then 0
    else
      var j := FirstIndex(xs[1..], x);
      assert xs[..j + 1] == [xs[0]] + xs[1..][..j];
      j + 1
  }

  /** `list.remove(x)`: the list without its first `x`, or `None` when
      there is none. */
  function RemoveFirst(xs: seq<string>, x: string): (r: Option<seq<string>>)
    ensures r.None? <==> x !in xs
    ensures r.Some? ==> |r.value| == |xs| - 1
    ensures r.Some? ==> r.value == xs[..FirstIndex(xs, x)] + xs[FirstIndex(xs, x) + 1..]
  {
    if x in xs then
      var i := FirstIndex(xs, x);
      Some(xs[..i] + xs[i + 1..])
    else None
  }

  /** gen_wrap.py:331-354: the returned value of a non-status function and
      the outputs returned after it. A returned array takes its length from
      the `retarraysize` output, which is then not returned separately;
      when that output is missing the diagnostic's own format raises
      TypeError (two `%s`, one argument). The `rv.contents` branch is
      unreachable: `config.get` yields a string or None, never `False`. */
  function ReturnValue(retarraysize: string, retpointer: bool, retparams: seq<string>): (r: Result<(string, seq<string>)>)
    ensures r.Err? <==> retarraysize != "" && retarraysize + ".value" !in retparams
    ensures r.Ok? && retarraysize != "" ==>
      && r.value.0 == "DisposedArray(rv, " + retarraysize + ".value)"
      && RemoveFirst(retparams, retarraysize + ".value") == Some(r.value.1)
    ensures r.Ok? && retarraysize == "" ==>
      r.value == (if retpointer then "DisposedPointer(rv)" else "rv", retparams)
    ensures r.Ok? ==> r.value.0 != "rv.contents"
  {
    if retarraysize != "" then
      match RemoveFirst(retparams, retarraysize + ".value")
      case Some(rest) => Ok(("DisposedArray(rv, " + retarraysize + ".value)", rest))
      case None => Err("TypeError: not enough arguments for format string")
    else if retpointer then Ok(("DisposedPointer(rv)", retparams))
    else Ok(("rv", retparams))
  }

  /** The call and return lines. A status function has its status checked
      by the binding and returns only its outputs; any other keeps the
      binding's result as `rv` and returns it first. */
  function CallLines(ret: ReturnPlan, retarraysize: string, call: string, retparams: seq<string>): (r: Result<seq<string>>)
    ensures IsStatus(ret.functype) ==> r.Ok?
    ensures IsStatus(ret.functype) && r.Ok? ==>
      && (|r.value| == 2 <==> retparams != [])
      && (|r.value| == 1 <==> retparams == [])
      && r.value[0] == "    " + call
      && (retparams != [] ==> r.value[1] == "    return " + Join(", ", retparams))
    ensures !IsStatus(ret.functype) ==>
      && (r.Ok? <==> ReturnValue(retarraysize, ret.retpointer, retparams).Ok?)
      && (r.Ok? ==>
            var (retval, rest) := ReturnValue(retarraysize, ret.retpointer, retparams).value;
            r.value == ["    rv = " + call, "    return " + Join(", ", [retval] + rest)])
  {
    if IsStatus(ret.functype) then
      Ok(["    " + call] + (if retparams != [] then ["    return " + Join(", ", retparams)] else []))
    else
      var (retval, rest) :- ReturnValue(retarraysize, ret.retpointer, retparams);
      Ok(["    rv = " + call, "    return " + Join(", ", [retval] + rest)])
  }

  /** The call of the private binding with the call arguments. */
  function CallText(name: string, params: seq<Param>, outs: seq<string>, sizedNames: set<string>): string {
    "_" + name + "(" + Join(", ", CallArgs(params, outs, sizedNames)) + ")"
  }

  /** The wrapper after its array conversions: one line per placeholder,
      in output order, then the call and the return. */
  function WrapperBody(ctx: GenContext, name: string, ret: ReturnPlan, params: seq<Param>, scan: Scan, sizes: SizeHints): (r: Result<seq<string>>)
    ensures var holders := Placeholders(ctx, scan.types, Placed(scan.outs, Keys(sizes.sized)));
      r.Ok? <==>
        && holders.Ok?
        && (IsStatus(ret.functype) || ReturnValue(sizes.retarraysize, ret.retpointer, RetParams(holders.value)).Ok?)
    ensures var holders := Placeholders(ctx, scan.types, Placed(scan.outs, Keys(sizes.sized)));
      var call := CallText(name, params, scan.outs, Keys(sizes.sized));
      r.Ok? ==> r.value == HolderLines(holders.value) + CallLines(ret, sizes.retarraysize, call, RetParams(holders.value)).value
    ensures r.Ok? ==> |r.value| >= 1 + |Placed(scan.outs, Keys(sizes.sized))|
  {
    var holders :- Placeholders(ctx, scan.types, Placed(scan.outs, Keys(sizes.sized)));
    var call := CallText(name, params, scan.outs, Keys(sizes.sized));
    var tail :- CallLines(ret, sizes.retarraysize, call, RetParams(holders));
    Ok(HolderLines(holders) + tail)
  }

  /** The whole wrapper: the `def` line, the array conversions, then the
      placeholders, the call and the return. */
  function Wrapper(ctx: GenContext, name: string, ret: ReturnPlan, params: seq<Param>, scan: Scan, sizes: SizeHints): (r: Result<seq<string>>)
    ensures var holders := Placeholders(ctx, scan.types, Placed(scan.outs, Keys(sizes.sized)));
      r.Ok? <==>
        && ArrayLines(ctx, scan.types, sizes.sized).Ok?
        && holders.Ok?
        && (IsStatus(ret.functype) || ReturnValue(sizes.retarraysize, ret.retpointer, RetParams(holders.value)).Ok?)
    ensures r.Ok? ==> |r.value| >= 2 + |sizes.sized| + |Placed(scan.outs, Keys(sizes.sized))|
    ensures r.Ok? ==> r.value[0] == "def " + name + "(" + Join(", ", WrapperParams(ParamNames(params), scan.outs, sizes.sizeParams)) + "):"
    ensures r.Ok? ==> forall k :: 0 <= k < |sizes.sized| ==> r.value[1 + k] == ArrayLines(ctx, scan.types, sizes.sized).value[k]
    ensures r.Ok? ==> r.value[1 + |sizes.sized|..] == WrapperBody(ctx, name, ret, params, scan, sizes).value
  {
    var header := "def " + name + "(" + Join(", ", WrapperParams(ParamNames(params), scan.outs, sizes.sizeParams)) + "):";
    var arrays :- ArrayLines(ctx, scan.types, sizes.sized);
    var body :- WrapperBody(ctx, name, ret, params, scan, sizes);
    assert ([header] + arrays + body)[1 + |arrays|..] == body;
    Ok([header] + arrays + body)
  }

  /** Every name the wrapper reads is bound when it reads it. Each call
      argument is a wrapper parameter, an array length the conversions
      assign, or an allocated output; each array a conversion reads and
      converts is a wrapper parameter. It takes the `retarraysize`
      output to be an output or an array length, and no sized parameter to
      be an output or a size parameter; `SizedOutputIsUnbound` shows what
      happens otherwise. */
  lemma EveryArgumentIsBound(params: seq<Param>, outs: seq<string>, h: Hints, sizes: SizeHints, k: int)
    requires SizeHintsOf(h) == Ok(sizes)
    requires 0 <= k < |params|
    requires sizes.retarraysize == "" || sizes.retarraysize in Values(sizes.sized) || sizes.retarraysize in outs
    requires forall p :: p in Keys(sizes.sized) ==> p !in outs && p !in sizes.sizeParams
    ensures var x := params[k].name;
      || x in WrapperParams(ParamNames(params), outs, sizes.sizeParams)
      || x in Values(sizes.sized)
      || x in Placed(outs, Keys(sizes.sized))
    ensures forall p :: p in Keys(sizes.sized) && p in ParamNames(params) ==>
      p in WrapperParams(ParamNames(params), outs, sizes.sizeParams)
  {
    var x := params[k].name;
    assert x == ParamNames(params)[k];
    if x in sizes.sizeParams && x !in Values(sizes.sized) {
      assert x == sizes.retarraysize;
    }
  }

  /** A sized parameter that is also an output is neither a wrapper
      parameter nor given a placeholder, so its conversion reads a name
      that was never bound. */
  lemma SizedOutputIsUnbound(names: seq<string>, outs: seq<string>, sized: Assoc, sizeParams: set<string>, x: string)
    requires x in Keys(sized) && x in outs
    ensures x !in WrapperParams(names, outs, sizeParams)
    ensures x !in Placed(outs, Keys(sized))
  {
  }

  /** `int f(float* buf, int n)` with `arraysize = buf:n`: `buf` is an
      inferred output, so the wrapper is `def f():` and its conversion of
      `buf` reads an unbound name. */
  lemma SizedOutputExample(ctx: GenContext)
    requires "float" !in ctx.forward
    ensures var ps := [Param("buf", "float*", None), Param("n", "int", None)];
      var outs := Outputs(ctx, Inference(STDFUNC, false, {""}, {""}), ps);
      && outs == ["buf"]
      && WrapperParams(ParamNames(ps), outs, {"n"}) == []
      && Placed(outs, Keys([("buf", "n")])) == []
  {
    var ps := [Param("buf", "float*", None), Param("n", "int", None)];
    var inf := Inference(STDFUNC, false, {""}, {""});
    assert DropLast("float*") == "float";
    assert !StartsWith("float*", "const");
    assert IsOutput(ctx, inf, ps[0]);
    assert !IsOutput(ctx, inf, ps[1]);
    assert ps[1..][1..] == [];
    assert Outputs(ctx, inf, ps[1..][1..]) == [];
    assert Outputs(ctx, inf, ps[1..]) == [];
    var outs := Outputs(ctx, inf, ps);
    assert outs == ["buf"];
    assert ParamNames(ps) == ["buf", "n"];
    var sized: Assoc := [("buf", "n")];
    assert sized[0].0 == "buf";
    assert "buf" in Keys(sized);
    SizedOutputIsUnbound(ParamNames(ps), outs, [("buf", "n")], {"n"}, "buf");
    assert "n" !in WrapperParams(ParamNames(ps), outs, {"n"});
    assert forall y :: y !in WrapperParams(ParamNames(ps), outs, {"n"});
    assert forall y :: y !in Placed(outs, Keys([("buf", "n")]));
  }

  /** The binding is called by reference exactly for the allocated
      outputs. A C identifier has no parenthesis, so no plain argument
      looks like a `ctypes.byref(...)` one. */
  lemma ByReferenceIffPlaced(params: seq<Param>, outs: seq<string>, sizedNames: set<string>, k: int)
    requires 0 <= k < |params|
    requires '(' !in params[k].name
    ensures StartsWith(CallArgs(params, outs, sizedNames)[k], "ctypes.byref(") <==>
      params[k].name in Placed(outs, sizedNames)
  {
    var x := params[k].name;
    if x in outs && x !in sizedNames {
      assert ("ctypes.byref(" + x + ")")[..13] == "ctypes.byref(";
    } else {
      NoParenthesisNoByref(x);
    }
  }

  /** A name without a parenthesis does not start like a by-reference
      argument. */
  lemma NoParenthesisNoByref(x: string)
    requires '(' !in x
    ensures !StartsWith(x, "ctypes.byref(")
  {
    if |x| >= 13 {
      assert x[..13][12] == x[12] != '(';
      assert "ctypes.byref("[12] == '(';
    }
  }
}
